=== FILE: README.md ===
# Comment bot and dashboard, modelled in Dafny

The system is a bot that posts queued comments under one target post per
account, together with a web dashboard that edits the files the bot reads.
This project models the two cores of it:

- **The runner (`bot.py`).** It runs one turn per account and cycle. The turn
  skips when the in-memory processed count has reached the account's cap, when
  no target post id is set, or when the comment queue is empty. Otherwise it
  pops the head comment and submits it, with up to three attempts. Only a rate
  limit or a network failure leads to another attempt, and only a success adds
  one to the count. The rest of the queue is written back whatever the outcome.
  A cycle folds the turn over the accounts, and a run folds cycles under the
  running and paused flags.
- **The dashboard helpers (`controller.py`).** These are:
  - masking a secret for display;
  - reading an account's four secrets from `.env`;
  - creating or replacing one `KEY=value` line in `.env`;
  - deleting an account's lines from `.env`;
  - the status label;
  - the comment preview;
  - the settings upsert and its defaults;
  - generating, uploading and loading comments;
  - the target post id.

Files are text. Reading one follows Python's text mode:
- `"\r\n"` and a lone `"\r"` become `"\n"`;
- `readlines` cuts after every `"\n"`;
- `str.strip` removes Python's whitespace characters.

The platform is a stream of replies, one per submission, and the runner keeps
a cursor into it. What the runner's outer loop sees at its top arrives as a
sequence of ticks: the running and paused flags, the settings read at the start
of a cycle, and the dashboard's edits made between cycles.

Modules:
- `text.dfy` (`Wrappers`, `Text`): strip, prefixes, lower-casing, `str(int)`.
- `lines.dfy` (`Lines`): line-break translation, `readlines`/`writelines`, and loading and saving comment queues.
- `retry.dfy` (`Retry`): the retry loop.
- `settings.dfy` (`Settings`): the per-account settings map.
- `runner.dfy` (`Runner`, `RunnerExample`): the turn, the cycle and the run.
- `env.dfy` (`Env`): `.env` handling.
- `dashboard.dfy` (`Dashboard`): the remaining dashboard helpers.

## Model

| member | source | states |
|---|---|---|
| Text.Strip | bot.py:48 | `strip()` returns a contiguous middle part of the text, with only whitespace removed before and after it and none left at either end; trimmed text comes back unchanged |
| Text.IntToStringInjective | controller.py:253-258 | distinct account ids give distinct `str(id)` renderings, so two accounts never share a key |
| Lines.TranslateConcat | bot.py:47-48 | text-mode line-break translation works piecewise unless the cut splits a `"\r\n"` pair |
| Lines.TranslateIdentity | bot.py:47-48 | text without carriage returns reads back unchanged |
| Lines.JoinSplit | controller.py:110 | the lines `readlines` gives, concatenated, are the text |
| Lines.SplitJoin | controller.py:121-122 | well-formed lines written with `writelines` split back into the same lines |
| Lines.ReadJoin | controller.py:121-122 | written well-formed lines without carriage returns are what `readlines` gives back |
| Lines.CleanConcat | bot.py:48 | the strip-and-drop-blank comprehension distributes over concatenated line lists |
| Lines.Load | bot.py:45-50 | every loaded comment is non-empty, stripped, and free of line breaks |
| Lines.LoadFile | controller.py:36-41 | a missing comments file loads as no comments; loaded comments are storable |
| Lines.LoadSave | bot.py:45-55 | saving storable comments and loading them back gives the same list, in order |
| Lines.SaveLoadIdempotent | bot.py:45-55 | saving what was loaded and loading again changes nothing |
| Lines.LoadStorable | bot.py:45-50 | a file holding one storable comment, with or without a final break, loads as that comment |
| Lines.LoadAppend | controller.py:224-226 | text appended after contents ending in a line break loads as the old comments followed by the new |
| Lines.LoadSeparated | controller.py:215-217 | text written after an inserted line break loads as the old comments followed by the new, whatever the old contents |
| Retry.SubmitFrom | bot.py:115-142 | from attempt k: at most three submissions; every one but the last got a retryable reply; stopping early means a final reply; success iff the last reply was a success, adding exactly one to the count; one log line per submission |
| Retry.SendWithRetry | bot.py:114-142 | the whole retry loop satisfies the policy `Explains` |
| Retry.SubmitLoop | bot.py:114-142 | the counted loop with `break`s satisfies the same policy |
| Retry.ExplainsUnique | bot.py:115-142 | the policy fixes the outcome, so the loop and the recursive definition agree on every reply stream |
| Retry.AlwaysRateLimited | bot.py:127-129 | a platform that always rate-limits gets exactly three submissions, three rate-limit lines, and no count change |
| Retry.StopsAtFirstFinalReply | bot.py:124-142 | a Forbidden, Unauthorized or other reply after retryable ones ends the loop at that attempt |
| Settings.ForAccount | bot.py:90-92 | a missing entry or field defaults to interval 15 and cap 20; present fields are used |
| Settings.Update | controller.py:204-207 | the upsert adds or replaces only `str(id)`, keeps every other entry, and the runner then reads the submitted values |
| Settings.UpdateLeavesOthers | controller.py:206 | updating one account leaves every other account's settings as they were |
| Runner.LoadTweetId | bot.py:57-63 | nothing exactly when the file is missing or its stripped contents are empty, otherwise those stripped contents |
| Runner.SendHead | bot.py:110-145 | submits the head comment under the retry policy, advances the cursor by the submissions made, and writes back the queue minus its head; other accounts untouched |
| Runner.Skip | bot.py:96-108 | a skipped turn changes no file, no count and no cursor, and only appends to the log |
| Runner.Step | bot.py:90-145 | a turn sends iff count < cap, a target is set and the queue is non-empty; a skip changes nothing; a send consumes exactly the replies it uses and writes back the rest of the queue whatever the outcome |
| Runner.StepRespectsCap | bot.py:96-118 | a turn never takes a count within the cap beyond it |
| Runner.Cycle | bot.py:86-88 | a cycle keeps the target files, never moves the cursor back, and only appends to the log |
| Runner.CycleCountsGrow | bot.py:93-118 | a cycle never lowers a processed count |
| Runner.CycleRespectsCap | bot.py:96-118 | a count within the cap stays within it across a cycle |
| Runner.CycleLeavesUnreached | bot.py:86-88 | accounts after the point where the running flag was seen false keep their count and queue |
| Runner.RunKeepsCap | bot.py:78-98 | with the cap fixed across cycles, a count within it stays within it for the whole run |
| Runner.MainKeepsCap | bot.py:76-118 | from a fresh start, a fixed non-negative cap is never exceeded |
| Runner.PausedRunIdles | bot.py:79-81 | a paused flag seen at the top of the outer loop changes nothing: no submission, no file, no count, no log entry |
| Runner.HaltEndsRun | bot.py:78-160 | the first cleared running flag ends the run with the stop entry as the last log line, and the ticks after it are never read |
| Runner.RunExtendsLog | bot.py:72-160 | the run only ever appends to the log |
| RunnerExample.CapReachedAfterOneSend | bot.py:96-145 | with cap 1 the first cycle sends the head comment and leaves the rest; the second cycle skips and changes no file |
| Env.MaskToken | controller.py:80-85 | empty stays empty; up to 8 characters are shown whole; longer values show the first four, "...", and the last four (length 11) |
| Env.MaskHidesMiddle | controller.py:83-85 | two long secrets sharing their first and last four characters mask identically |
| Env.MaskIdempotent | controller.py:80-85 | masking a masked value changes nothing |
| Env.EnvKeyOk | controller.py:245-248 | every generated key is non-empty, unindented, and free of `=` and line breaks |
| Env.EnvKeysDistinct | controller.py:95-102 | keys of different fields differ whatever the account ids |
| Env.EnvKeyInjective | controller.py:253-258 | a key names exactly one field of one account |
| Env.MatchedExactly | controller.py:95-102 | the `if/elif` chain picks field f iff the stripped line starts with f's key and `=` |
| Env.ApplyLineField | controller.py:94-102 | one line sets field f exactly when it starts with f's key, to the masked text after the first `=` |
| Env.ScanShowsLastValue | controller.py:93-102 | after the loop each field shows the masked value of the last line setting it, or its earlier value if none does |
| Env.LoadEnvTokensShowsLastValue | controller.py:87-103 | each field is the masked value of the last matching line, and empty when `.env` is missing or no line matches |
| Env.ReplaceKey | controller.py:113-118 | the loop rewrites exactly the lines starting with `key=` to the entry and keeps the others in place |
| Env.UpdateLinesAsWritten | controller.py:111-120 | lines starting with `key=` become the entry, others are kept in order, and exactly one entry is appended when none matched |
| Env.AppendGlues | controller.py:119-122 | as written, on a one-line `.env` whose line does not start with `key=`, the file written is that line followed directly by the entry, so when the line has no final break the entry lands on it |
| Env.UpdateAsWrittenLosesKey | controller.py:119-120 | as written, updating a file whose only line is unterminated leaves one merged line and the key unreadable |
| Env.MergedExample | controller.py:119-120 | `A=1` without a final break, updated with `B=2`, gives `B` no value |
| Env.UpdateLines | controller.py:111-120 | the corrected update: as written, except that an unterminated last line is ended before the appended entry |
| Env.UpdateLinesReadBack | controller.py:121-122 | for a key and value as for Env.UpdateSetsKey, the corrected update writes lines that `readlines` gives back unchanged |
| Env.UpdateSetsKey | controller.py:105-122 | after the corrected update, `.env` gives the key the new value |
| Env.UpdateKeepsOtherKeys | controller.py:113-118 | for a key and value as for Env.UpdateSetsKey, the corrected update leaves the value of every other key as it was, however the lines are indented |
| Env.UpdateIdempotent | controller.py:105-122 | applying the corrected update twice writes what applying it once did |
| Env.UpdateLinesAgree | controller.py:111-120 | when the last line ends with a line break, the update as written and the corrected one write the same lines, and those end with a break again |
| Env.UpdateEnvAgrees | controller.py:105-122 | on a `.env` that is missing, empty or ends with a line break, the file `update_env_variable` writes is the corrected one, for any key and value |
| Env.UpdateAgrees | controller.py:105-122 | on such a `.env`, and for a key and value as for Env.UpdateSetsKey, the file `update_env_variable` writes is the corrected one and ends with a break |
| Env.UpdateAsWrittenSetsKey | controller.py:105-122 | on such a `.env`, `update_env_variable` as written gives the key the new value and leaves every other key's value |
| Env.UpdateTokensField | controller.py:245-248 | after `update_tokens`, on a `.env` that is missing, empty or ends with a line break, each field shows the submitted value, stripped and masked |
| Env.UpdateTokensShown | controller.py:238-248 | on such a `.env`, after `update_tokens` the dashboard shows the four submitted values, stripped and masked |
| Env.UpdateTokensLeavesOthers | controller.py:245-248 | on a `.env` that is missing, empty or ends with a line break, and for one-line submitted values, updating one account's secrets leaves what every other account shows, however the lines are indented |
| Env.UpdateFieldsKeepsUnlisted | controller.py:245-248 | on an `.env` that is missing, empty or ends with a line break, and for one-line submitted values, whatever the indentation, the four updates of `update_tokens` leave the value of any field they do not write |
| Env.UpdateTokensLosesKey | controller.py:245-248 | as written, when `.env` is one line without a final break, `update_tokens` glues the consumer key entry onto it, and the account then shows no consumer key whatever was submitted |
| Env.ResetLines | controller.py:263 | every kept line is an input line that does not start with one of the account's four keys and `=`, and every such input line is kept |
| Env.ResetCounts | controller.py:263 | each kept line occurs in the result exactly as often as in the input, and a deleted line not at all |
| Env.ResetDistributes | controller.py:263 | the filter works line by line, so it keeps the relative order of kept lines |
| Env.ResetWellFormed | controller.py:261-265 | deleting lines keeps the file's line structure |
| Env.ResetReadBack | controller.py:261-265 | the lines `reset_tokens` writes are the ones `readlines` gives back |
| Env.ResetKeepsLastValue | controller.py:263 | deleting lines that say nothing about a key keeps that key's last value |
| Env.ResetClearsTokens | controller.py:252-265 | after `reset_tokens` the account's four fields show empty |
| Env.ResetLeavesOthers | controller.py:252-265 | `reset_tokens` for one account leaves what another shows, on any `.env`: a deleted line starts with the reset account's key, so it says nothing about another account |
| Env.ResetMissesIndentedKey | controller.py:263 | an indented key line is not deleted, because the filter tests raw lines |
| Env.IndentedKeyShown | controller.py:93-96 | the same indented line is still shown, because the reader strips lines |
| Dashboard.StatusLabel | controller.py:147 | "Paused" whenever paused; otherwise "Running" or "Stopped" by the running flag |
| Dashboard.StartBot | controller.py:174-178 | after start the running flag is set, the paused flag is kept, and the label is "Paused" or "Running", never "Stopped"; a runner is started exactly when the running flag was clear |
| Dashboard.StopBot | controller.py:181-184 | stop clears the running flag and keeps the paused one, so the label is "Stopped" unless the bot is paused |
| Dashboard.PauseBot | controller.py:186-189 | pause sets the paused flag and keeps the running one; the label is then "Paused" |
| Dashboard.ResumeBot | controller.py:191-194 | resume clears the paused flag and keeps the running one; the label then follows the running flag |
| Dashboard.LabelMatchesRunner | controller.py:147 | at the top of the runner's outer loop (bot.py:78-81), the label says "Running" exactly when the runner goes on to a cycle, "Paused" when it idles, and "Stopped" exactly when neither flag is set |
| Dashboard.StartTwiceStartsOnce | controller.py:175-178 | pressing start twice starts one runner |
| Dashboard.StopWhilePaused | controller.py:181-194 | stop keeps the paused flag, so a stopped bot can still be labelled "Paused" |
| Dashboard.SliceBound | controller.py:50-51 | Python's slice-bound normalisation: a bound within the list is kept, a negative one counts from the end, and bounds beyond either end are clamped to it |
| Dashboard.PreviewAsWritten | controller.py:43-55 | no comments give no preview; up to `limit` comments are shown whole; otherwise the first and last `limit` comments, with "..." only when there are more than `2*limit` |
| Dashboard.PreviewRepeats | controller.py:50-53 | as written, between `limit` and `2*limit` comments show `2*limit` entries, with some comments twice |
| Dashboard.Preview | controller.py:50-53 | the corrected preview: everything up to `2*limit`, otherwise head, "..." and tail |
| Dashboard.PreviewAgrees | controller.py:50-53 | the corrected preview equals `preview_comments` (Dashboard.PreviewAsWritten) outside the overlap range, never exceeds `2*limit+1` entries, and its head and tail do not overlap |
| Dashboard.StepLowersCommentsLeft | controller.py:131-138 | each send lowers the dashboard's comments-left count by one; a skip leaves it |
| Dashboard.TweetLabel | controller.py:29-34 | the dashboard shows the runner's target, or "No Tweet ID" when the runner has none |
| Dashboard.UpdateTweetReadBack | controller.py:231-233 | the runner reads back the stripped id, and nothing for a blank one |
| Dashboard.ViewMatchesRunner | controller.py:134-142 | the dashboard shows the settings the runner uses |
| Dashboard.Generated | controller.py:225-226 | exactly `total` comments (none when `total` ≤ 0), the i-th being `base i` |
| Dashboard.GenerateText | controller.py:224-226 | the loop writes the generated comments one per line |
| Dashboard.GeneratedLoadsBack | controller.py:225-226 | the runner loads back exactly the generated comments, in order |
| Dashboard.GenerateAsWrittenQueues | controller.py:220-228 | as written, on a comments file that is missing, empty or ends with a line break, and for a one-line base text not starting with whitespace, append queues the generated comments after the old ones and overwrite queues only them |
| Dashboard.GenerateQueues | controller.py:221-226 | corrected: append queues the generated comments after the old ones; overwrite queues only them |
| Dashboard.GenerateAsWrittenMerges | controller.py:223-226 | as written, appending after an unterminated comment glues the first generated comment onto it, leaving one comment fewer |
| Dashboard.MergedExample | controller.py:223-226 | a file holding `a`, plus one comment generated from `x` in append mode, gives one comment where two were meant |
| Dashboard.UploadQueues | controller.py:211-218 | an upload queues its comments after the old ones, whether or not the old contents ended with a line break |

## Left out

- The web routes, templates, static files and websocket push loop are left out. They are framework glue.
- Threads and `asyncio.run` are left out. The running and paused flags are plain inputs read at the top of the outer loop. A running flag cleared during a cycle is the index `stopAt` of the first account that sees it (bot.py:87-88).
- A pause during a cycle is left out. The paused flag is modelled only at the top of the outer loop (bot.py:79-81). In the program a pause stops neither the retry loop already running (bot.py:115-142) nor the next accounts when the interval wait is skipped: it is skipped after a skip (bot.py:98, 103, 108) and when the interval is 0 or less (bot.py:152). Only the interval wait blocks on it (bot.py:155-156).
- Dashboard edits during a cycle are left out. The runner reads `tweets_<id>.txt` and `comments_<id>.txt` again for every account (bot.py:100, 105), so an edit made during one account's interval wait is seen by the next account of the same cycle. The model applies edits only between cycles, as `Edit` ticks.
- Dashboard.LabelMatchesRunner relates the label to the runner's top-of-loop check only. Within a cycle the retry loop ignores both flags, so the label can read "Stopped" or "Paused" while a comment is still being submitted.
- Retry.AlwaysRateLimited models a client that raises on a rate limit. The program builds its clients with `wait_on_rate_limit=True` (bot.py:31); such a tweepy client waits out a rate limit inside the call instead. The tweepy library is not part of this model.
- The tweepy client, credential loading into clients and the account list are left out. They are foreign calls. Submissions read a reply stream, and the accounts are a parameter.
- `time.sleep`, the retry back-offs and the per-account interval wait are left out. They only spend wall-clock time. The interval is read but has no effect on the model.
- File I/O is left out. Files are their contents, and a missing file is `None`.
- JSON decoding is left out. A settings file that fails to decode is the empty map, which the caller passes in.
- `int()` on settings values is left out. Values are assumed to be integers already.
- The log file, `load_logs` and `clear_logs` are left out. The log is a list of events, without text formatting.
- UTF-8 decoding of uploads is left out. Strings are sequences of characters.
- `str.lower` is modelled on ASCII letters only. No other character lower-cases into a letter of "suspend", so the test is unaffected.
- Runner.Run and Runner.Main carry no contract of their own. Their properties are stated by Runner.RunKeepsCap, Runner.MainKeepsCap, Runner.PausedRunIdles, Runner.HaltEndsRun and Runner.RunExtendsLog.
- Env.ResetClearsTokens assumes no line of `.env` starts with whitespace. `reset_tokens` tests raw lines while `load_env_tokens` strips them, so an indented key line survives a reset and is still shown (Env.ResetMissesIndentedKey and Env.IndentedKeyShown).
- Env.UpdateSetsKey assumes unindented lines, a key with no `=`, line break or leading space, and a stripped one-line value. An indented `key=` line is not replaced but is still read.
- Env.UpdateKeepsOtherKeys assumes a key and value as for Env.UpdateSetsKey.
- Env.UpdateIdempotent assumes a key and value as for Env.UpdateSetsKey.
- Env.UpdateTokensField assumes unindented lines, submitted values that are one line once stripped, and an `.env` that is missing, empty or ends with a line break. On an `.env` without a final break the program's `update_tokens` loses the first entry it appends (Env.UpdateTokensLosesKey, Finding 1).
- Env.UpdateTokensShown assumes the same as Env.UpdateTokensField.
- Env.UpdateTokensLeavesOthers assumes one-line submitted values and an `.env` that is missing, empty or ends with a line break. Without a final break the glued entry also changes the value of the last line's key, which may belong to another account.
- Env.UpdateLinesReadBack assumes a key and value as for Env.UpdateSetsKey: a value with a line break would be read back as two lines.
- Env.AppendGlues covers a one-line `.env` only, the smallest file that shows the gluing.
- Env.UpdateAsWrittenSetsKey assumes the same `.env` shape as Env.UpdateTokensField and a key and value as for Env.UpdateSetsKey.
- Env.UpdateFieldsKeepsUnlisted assumes one-line submitted values and an `.env` that is missing, empty or ends with a line break. Without a final break the first appended entry is glued onto the last line and changes the value of that line's key.
- Env.UpdateAgrees assumes a key and value as for Env.UpdateSetsKey for its second clause, that the result ends with a break; Env.UpdateEnvAgrees states the equality without them.
- Env.UpdateTokensLosesKey covers a file of one unterminated line only, as Env.UpdateAsWrittenLosesKey does.
- Dashboard.GenerateAsWrittenQueues assumes a comments file that is missing, empty or ends with a line break, and a base text as for Dashboard.GenerateQueues; Dashboard.GenerateAsWrittenMerges shows what happens without the final break.
- Env.UpdateAsWrittenLosesKey covers a file of one unterminated line only, which is the smallest case that shows the defect.
- Dashboard.Preview requires `limit > 0`. The dashboard always calls with 5.
- Dashboard.PreviewAsWritten says nothing for a negative `limit`. The dashboard never passes one.
- Dashboard.UpdateTweetReadBack assumes the id has no carriage return, since text mode would rewrite one when the runner reads it.
- Dashboard.GenerateQueues assumes a base text that is one line and does not start with whitespace. Otherwise the generated comments do not survive stripping.
- Dashboard.GenerateAsWrittenMerges covers old contents of one unterminated comment only.
- Dashboard.GeneratedLoadsBack assumes the same base text as Dashboard.GenerateQueues.

## Findings

| source | as written | input that shows it | evidently intended | confidence | as-written member | corrected member |
|---|---|---|---|---|---|---|
| controller.py:119-120 | when no line has the key, `key=value\n` is appended right after the last line, even if that line has no final line break | `.env` holding `A=1` with no final break, update key `B` to `2`: the file becomes `A=1B=2`, `B` has no value and `A` reads `1B=2`. `update_tokens` inherits it: on `.env` holding `CONSUMER_KEY_2=v` without a final break, updating account 1 leaves account 1 with no consumer key (Env.UpdateTokensLosesKey) | the new entry starts a line of its own | not executed; high | Env.UpdateAsWrittenLosesKey | Env.UpdateSetsKey |
| controller.py:223-226 | append mode writes the generated lines straight after the old contents | a comments file holding `a` with no final break (as an upload of such a file leaves it), then one comment generated from `x` in append mode: the queue holds `ax 1` instead of `a` and `x 1` | the generated comments follow the old ones as separate comments | not executed; high | Dashboard.GenerateAsWrittenMerges | Dashboard.GenerateQueues |
| controller.py:50-53 | the head is the first `limit` comments and the tail the last `limit`, whenever there are more than `limit` | 7 comments with limit 5: the preview has 10 entries and shows comments 3 to 5 twice | each comment shown once, with "..." only between a head and a tail that do not meet | not executed; medium | Dashboard.PreviewRepeats | Dashboard.PreviewAgrees |

=== FILE: dashboard.dfy ===
/**
 * The dashboard side (controller.py): the status label and the control
 * flags, the per-account view (comments left, target, preview, settings),
 * and the routes that rewrite the comment and target files.
 */
module Dashboard {
  import opened Wrappers
  import opened Text
  import Lines
  import Settings
  import Runner
  import Retry

  // ----- Status -----

  /** The two flags shared with the runner. */
  datatype Flags = Flags(running: bool, paused: bool)

  /** The label of `get_status_data`: the paused flag wins over the running one. */
  function StatusLabel(f: Flags): (text: string)
    ensures f.paused ==> text == "Paused"
    ensures !f.paused && f.running ==> text == "Running"
    ensures !f.paused && !f.running ==> text == "Stopped"
  {
    if f.paused then "Paused" else if f.running then "Running" else "Stopped"
  }

  /** `start_bot`: sets the running flag, and starts the runner thread only
      when the flag was clear. Afterwards the bot is not labelled "Stopped";
      it is labelled "Running" unless it is paused. */
  function StartBot(f: Flags): (r: (Flags, bool))
    ensures r.0.running && r.0.paused == f.paused
    ensures StatusLabel(r.0) == if f.paused then "Paused" else "Running"
    ensures r.1 ==> !f.running
    ensures !f.running ==> r.1
  {
    (f.(running := true), !f.running)
  }

  /** `stop_bot`: clears the running flag only, so the label becomes "Stopped"
      unless the bot is paused. */
  function StopBot(f: Flags): (r: Flags)
    ensures !r.running && r.paused == f.paused
    ensures StatusLabel(r) == if f.paused then "Paused" else "Stopped"
  {
    f.(running := false)
  }

  /** `pause_bot`: the label becomes "Paused" whatever the running flag says. */
  function PauseBot(f: Flags): (r: Flags)
    ensures r.paused && r.running == f.running
    ensures StatusLabel(r) == "Paused"
  {
    f.(paused := true)
  }

  /** `resume_bot`: the label goes back to what the running flag says. */
  function ResumeBot(f: Flags): (r: Flags)
    ensures !r.paused && r.running == f.running
    ensures StatusLabel(r) == if f.running then "Running" else "Stopped"
  {
    f.(paused := false)
  }

  /** What the runner's outer loop does under the flags: it leaves when not
      running, idles when paused, and otherwise works (a cycle, or a turn in
      which the dashboard changed files). */
  predicate Governs(f: Flags, t: Runner.Tick) {
    match t
    case Halt => !f.running
    case Paused => f.running && f.paused
    case Pass(_, _) => f.running && !f.paused
    case Edit(_) => f.running && !f.paused
  }

  /** The label says "Running" exactly when the runner can be cycling, and
      "Stopped" exactly when neither flag is set. */
  lemma LabelMatchesRunner(f: Flags, t: Runner.Tick)
    requires Governs(f, t)
    ensures t.Pass? ==> StatusLabel(f) == "Running"
    ensures t.Paused? ==> StatusLabel(f) == "Paused"
    ensures StatusLabel(f) == "Running" <==> f.running && !f.paused
    ensures StatusLabel(f) == "Stopped" <==> !f.running && !f.paused
  {
  }

  /** Pressing start twice starts one runner thread. */
  lemma StartTwiceStartsOnce(f: Flags)
    ensures !StartBot(StartBot(f).0).1
    ensures StartBot(StartBot(f).0).0 == StartBot(f).0
  {
  }

  /** `stop_bot` leaves the paused flag alone, so a bot stopped while paused
      is still labelled "Paused"; resuming it then shows "Stopped". */
  lemma StopWhilePaused(f: Flags)
    ensures StatusLabel(StopBot(PauseBot(f))) == "Paused"
    ensures StatusLabel(ResumeBot(StopBot(PauseBot(f)))) == "Stopped"
  {
  }

  // ----- Preview -----

  /** Python's normalisation of a slice bound `i` for a list of length `n`. */
  function SliceBound(n: nat, i: int): (k: nat)
    ensures k <= n
    ensures 0 <= i <= n ==> k == i
    ensures i > n ==> k == n
    ensures i < 0 && -i <= n ==> k == n + i
    ensures i + n < 0 ==> k == 0
  {
    if i < 0 then (if n + i < 0 then 0 else n + i) else if i > n then n else i
  }

  /** `s[:j]`. */
  function Prefix<T>(s: seq<T>, j: int): seq<T> {
    s[..SliceBound(|s|, j)]
  }

  /** `s[i:]`. */
  function Suffix<T>(s: seq<T>, i: int): seq<T> {
    s[SliceBound(|s|, i)..]
  }

  const Ellipsis := "..."

  /** `preview_comments` on the loaded comments, as written: the first `limit`,
      an ellipsis, the last `limit`. When there are between `limit` and
      `2 * limit` comments the head and the tail overlap. */
  function PreviewAsWritten(lines: seq<string>, limit: int): (r: seq<string>)
    ensures lines == [] ==> r == []
    ensures 0 < limit && |lines| <= limit ==> r == lines
    ensures 0 < limit < |lines| <= 2 * limit ==> r == lines[..limit] + lines[|lines| - limit..]
    ensures 0 < limit && 2 * limit < |lines| ==> r == lines[..limit] + [Ellipsis] + lines[|lines| - limit..]
    ensures limit == 0 && lines != [] ==> r == [Ellipsis] + lines
  {
    PreviewCases(lines, limit);
    PreviewText(lines, limit)
  }

  /** The statements of `preview_comments`, one for one. */
  function PreviewText(lines: seq<string>, limit: int): seq<string> {
    if lines == [] then []
    else
      var head := Prefix(lines, limit);
      var tail := if |lines| > limit then Suffix(lines, -limit) else [];
      var body := if tail != [] && |lines| > limit * 2 then [Ellipsis] else [];
      head + body + tail
  }

  /** What the statements give, case by case. */
  lemma PreviewCases(lines: seq<string>, limit: int)
    ensures lines == [] ==> PreviewText(lines, limit) == []
    ensures 0 < limit && |lines| <= limit ==> PreviewText(lines, limit) == lines
    ensures 0 < limit < |lines| <= 2 * limit ==> PreviewText(lines, limit) == lines[..limit] + lines[|lines| - limit..]
    ensures 0 < limit && 2 * limit < |lines| ==> PreviewText(lines, limit) == lines[..limit] + [Ellipsis] + lines[|lines| - limit..]
    ensures limit == 0 && lines != [] ==> PreviewText(lines, limit) == [Ellipsis] + lines
  {
    PreviewSlices(lines, limit);
    if lines == [] || limit < 0 {
    } else if limit == 0 {
      assert PreviewText(lines, limit) == [] + [Ellipsis] + lines;
    } else if |lines| <= limit {
      assert PreviewText(lines, limit) == lines + [] + [];
    } else if |lines| <= 2 * limit {
      assert PreviewText(lines, limit) == lines[..limit] + [] + lines[|lines| - limit..];
    }
  }

  /** The head and the tail of the preview for a non-negative limit. */
  lemma PreviewSlices<T>(lines: seq<T>, limit: int)
    ensures 0 <= limit <= |lines| ==> Prefix(lines, limit) == lines[..limit]
    ensures 0 <= limit && |lines| <= limit ==> Prefix(lines, limit) == lines
    ensures 0 < limit < |lines| ==> Suffix(lines, -limit) == lines[|lines| - limit..] != []
    ensures limit == 0 ==> Suffix(lines, -limit) == lines
  {
  }

  /** With 7 comments and the dashboard's limit of 5, the preview shows 10
      entries: the third to fifth comments twice. */
  lemma PreviewRepeats(lines: seq<string>, limit: int)
    requires 0 < limit < |lines| < 2 * limit
    ensures |PreviewAsWritten(lines, limit)| == 2 * limit > |lines|
    ensures var j := |lines| - limit;
            PreviewAsWritten(lines, limit)[j] == lines[j] == PreviewAsWritten(lines, limit)[limit]
  {
  }

  /** The preview with the overlap removed: everything when head and tail
      would meet, otherwise head, ellipsis and tail. */
  function Preview(lines: seq<string>, limit: int): (r: seq<string>)
    requires limit > 0
    ensures |lines| <= 2 * limit ==> r == lines
    ensures 2 * limit < |lines| ==> r == lines[..limit] + [Ellipsis] + lines[|lines| - limit..]
  {
    if |lines| <= 2 * limit then lines
    else PreviewAsWritten(lines, limit)
  }

  /** The corrected preview agrees with `preview_comments` wherever that
      does not repeat comments, and never shows more than `2 * limit + 1` entries.
      It shows no comment twice: when it splits into head and tail, the head
      ends at index `limit` and the tail starts at `|lines| - limit`, which
      is not before it (the last clause). */
  lemma PreviewAgrees(lines: seq<string>, limit: int)
    requires limit > 0
    ensures !(limit < |lines| <= 2 * limit) ==> Preview(lines, limit) == PreviewAsWritten(lines, limit)
    ensures |Preview(lines, limit)| <= 2 * limit + 1
    ensures 2 * limit < |lines| ==> limit <= |lines| - limit
  {
  }

  /** The number of comments the dashboard shows as left: what the runner will load. */
  function CommentsLeft(file: Option<string>): nat {
    |Lines.LoadFile(file)|
  }

  /** Every step that sends a comment lowers that account's count of comments
      left by one; a skipped step leaves it. */
  lemma StepLowersCommentsLeft(st: Runner.State, id: int, settings: Settings.Json, replies: Retry.Replies)
    ensures var r := Runner.Step(st, id, settings, replies);
            var before := CommentsLeft(Runner.FileOf(st.files.comments, id));
            var after := CommentsLeft(Runner.FileOf(r.state.files.comments, id));
            (r.kind.Sent? ==> after == before - 1) && (r.kind.Skipped? ==> after == before)
  {
  }

  // ----- Target post -----

  /** The dashboard's `load_tweet_id`: the runner's target, or a placeholder. */
  function TweetLabel(file: Option<string>): (text: string)
    ensures Runner.LoadTweetId(file).Some? ==> text == Runner.LoadTweetId(file).value
    ensures Runner.LoadTweetId(file).None? ==> text == "No Tweet ID"
  {
    match file
    case None => "No Tweet ID"
    case Some(raw) =>
      var v := Strip(Lines.Translate(raw));
      if v == [] then "No Tweet ID" else v
  }

  /** `update_tweet`: the file holds the submitted id, stripped. */
  function UpdateTweet(tweetId: string): string {
    Strip(tweetId)
  }

  /** The runner reads back the stripped id, and nothing for a blank one. */
  lemma UpdateTweetReadBack(tweetId: string)
    requires '\r' !in tweetId
    ensures Runner.LoadTweetId(Some(UpdateTweet(tweetId))) ==
            if Strip(tweetId) == [] then None else Some(Strip(tweetId))
  {
    StripKeepsAbsent(tweetId, '\r');
    Lines.TranslateIdentity(Strip(tweetId));
  }

  // ----- Settings -----

  /** The dashboard's view of an account's settings: the entry, or a default
      entry, then each field with its own default. */
  function AccountView(s: Settings.Json, id: int): Settings.AccountSettings {
    var entry := if Settings.Key(id) in s then s[Settings.Key(id)]
                 else map["interval" := 15, "max_comments" := 20];
    Settings.AccountSettings(Settings.Field(entry, "interval", 15), Settings.Field(entry, "max_comments", 20))
  }

  /** The dashboard shows the settings the runner uses. */
  lemma ViewMatchesRunner(s: Settings.Json, id: int)
    ensures AccountView(s, id) == Settings.ForAccount(s, id)
  {
  }

  // ----- Generated comments -----

  /** `f"{base_text} {i}"`. */
  function Numbered(base: string, i: int): string {
    base + " " + IntToString(i)
  }

  /** The comments numbered 1 to `total`. */
  function Generated(base: string, total: int): (cs: seq<string>)
    ensures |cs| == if total > 0 then total else 0
    ensures forall i :: 0 <= i < |cs| ==> cs[i] == Numbered(base, i + 1)
  {
    if total <= 0 then [] else Generated(base, total - 1) + [Numbered(base, total)]
  }

  /** The loop of `generate_comments`: one line per number from 1 to `total`. */
  method GenerateText(base: string, total: int) returns (text: string)
    ensures text == Lines.Save(Generated(base, total))
  {
    text := "";
    var i := 1;
    while i <= total
      invariant 1 <= i <= (if total > 0 then total + 1 else 1)
      invariant text == Lines.Save(Generated(base, i - 1))
    {
      Lines.SaveSnoc(Generated(base, i - 1), Numbered(base, i));
      text := text + Numbered(base, i) + "\n";
      i := i + 1;
    }
  }

  /** A base the generated comments survive reloading with: not blank at the
      front and on one line. */
  predicate GoodBase(base: string) {
    base != [] && !IsSpace(base[0]) && '\n' !in base && '\r' !in base
  }

  lemma NumberedStorable(base: string, i: int)
    requires GoodBase(base)
    ensures Lines.Storable(Numbered(base, i))
  {
    var c := Numbered(base, i);
    var d := IntToString(i);
    assert c[0] == base[0];
    assert c[|c| - 1] == d[|d| - 1];
    assert '\n' !in d && '\r' !in d by {
      assert forall k :: 0 <= k < |d| ==> d[k] != '\n' && d[k] != '\r';
    }
  }

  /** The runner loads back exactly the generated comments, in order. */
  lemma GeneratedLoadsBack(base: string, total: int)
    requires GoodBase(base)
    ensures Lines.Load(Lines.Save(Generated(base, total))) == Generated(base, total)
  {
    GeneratedStorable(base, total);
    Lines.LoadSave(Generated(base, total));
  }

  lemma GeneratedStorable(base: string, total: int)
    requires GoodBase(base)
    ensures Lines.AllStorable(Generated(base, total))
  {
    var cs := Generated(base, total);
    forall i | 0 <= i < |cs|
      ensures Lines.Storable(cs[i])
    {
      NumberedStorable(base, i + 1);
    }
  }

  /** The comments file after `generate_comments`, as written: appended to
      the old contents in mode "append", replacing them otherwise. */
  function GenerateFileAsWritten(prev: Option<string>, base: string, total: int, mode: string): string {
    var text := Lines.Save(Generated(base, total));
    if mode == "append" then prev.GetOr("") + text else text
  }

  /** Corrected: in mode "append", old contents that do not end with a line
      break get one before the new lines. */
  function GenerateFile(prev: Option<string>, base: string, total: int, mode: string): string {
    var text := Lines.Save(Generated(base, total));
    if mode == "append" then
      var t := prev.GetOr("");
      if t == [] || t[|t| - 1] == '\n' then t + text else t + "\n" + text
    else text
  }

  /** A missing file reads as an empty one. */
  lemma LoadMissing(prev: Option<string>)
    ensures Lines.LoadFile(prev) == Lines.Load(prev.GetOr(""))
  {
    if prev.None? {
      Lines.LoadAppend([], []);
    }
  }

  /** Text added after contents ended by a line break, or after an inserted
      one, starts a new line. */
  lemma AppendAfterBreak(t: string, text: string)
    ensures Lines.Load(if t == [] || t[|t| - 1] == '\n' then t + text else t + "\n" + text) ==
            Lines.Load(t) + Lines.Load(text)
  {
    if t == [] || t[|t| - 1] == '\n' {
      Lines.LoadAppend(t, text);
    } else {
      Lines.LoadSeparated(t, text);
    }
  }

  /** With the correction, appending queues the generated comments after the
      old ones, and overwriting queues only them. */
  lemma GenerateQueues(prev: Option<string>, base: string, total: int, mode: string)
    requires GoodBase(base)
    ensures Lines.Load(GenerateFile(prev, base, total, mode)) ==
            (if mode == "append" then Lines.LoadFile(prev) else []) + Generated(base, total)
  {
    if mode == "append" {
      GenerateAppends(prev, base, total);
    } else {
      GeneratedLoadsBack(base, total);
      assert [] + Generated(base, total) == Generated(base, total);
    }
  }

  lemma GenerateAppends(prev: Option<string>, base: string, total: int)
    requires GoodBase(base)
    ensures Lines.Load(GenerateFile(prev, base, total, "append")) == Lines.LoadFile(prev) + Generated(base, total)
  {
    var text := Lines.Save(Generated(base, total));
    var t := prev.GetOr("");
    assert GenerateFile(prev, base, total, "append") ==
           if t == [] || t[|t| - 1] == '\n' then t + text else t + "\n" + text;
    GeneratedLoadsBack(base, total);
    LoadMissing(prev);
    AppendAfterBreak(t, text);
  }

  /** As written, on a file that is missing, empty or ends with a line break,
      appending queues the generated comments after the old ones, and
      overwriting queues only them. */
  lemma GenerateAsWrittenQueues(prev: Option<string>, base: string, total: int, mode: string)
    requires GoodBase(base)
    requires prev.None? || prev.value == [] || prev.value[|prev.value| - 1] == '\n'
    ensures Lines.Load(GenerateFileAsWritten(prev, base, total, mode)) ==
            (if mode == "append" then Lines.LoadFile(prev) else []) + Generated(base, total)
  {
    assert GenerateFileAsWritten(prev, base, total, mode) == GenerateFile(prev, base, total, mode);
    GenerateQueues(prev, base, total, mode);
  }

  /** As written, appending to a file whose one comment has no final line
      break (as an upload leaves it) glues the first generated comment onto
      it: the queue holds `total` comments where the old one and `total` new
      ones were meant ("a" and "x 1" become the single comment "ax 1"). */
  lemma GenerateAsWrittenMerges(prior: string, base: string, total: int)
    requires Lines.Storable(prior) && GoodBase(base) && total >= 1
    ensures Lines.Load(GenerateFileAsWritten(Some(prior), base, total, "append")) ==
            [prior + Numbered(base, 1)] + Generated(base, total)[1..]
    ensures |Lines.Load(GenerateFileAsWritten(Some(prior), base, total, "append"))| <
            |Lines.LoadFile(Some(prior)) + Generated(base, total)|
  {
    var cs := Generated(base, total);
    GeneratedStorable(base, total);
    assert Lines.Save(cs) == cs[0] + "\n" + Lines.Save(cs[1..]);
    assert prior + Lines.Save(cs) == (prior + cs[0]) + "\n" + Lines.Save(cs[1..]);
    Lines.LoadSeparated(prior + cs[0], Lines.Save(cs[1..]));
    GluedStorable(prior, cs[0]);
    Lines.LoadStorable(prior + cs[0]);
    Lines.LoadSave(cs[1..]);
    Lines.LoadStorable(prior);
  }

  /** The instance above: a file holding `a`, then one comment generated
      from `x` in append mode, leaves one comment where two were meant. */
  lemma MergedExample()
    ensures |Lines.Load(GenerateFileAsWritten(Some("a"), "x", 1, "append"))| == 1
    ensures |Lines.LoadFile(Some("a")) + Generated("x", 1)| == 2
  {
    GenerateAsWrittenMerges("a", "x", 1);
    Lines.LoadStorable("a");
  }

  /** Two storable comments glued together make one. */
  lemma GluedStorable(a: string, b: string)
    requires Lines.Storable(a) && Lines.Storable(b)
    ensures Lines.Storable(a + b)
  {
  }

  // ----- Uploaded comments -----

  /** `upload_comments`: the upload with its line breaks normalised, written
      in append mode after a line break. The existence test runs after the
      file is opened for appending, so the break is always written. */
  function UploadFile(prev: Option<string>, upload: string): string {
    prev.GetOr("") + "\n" + Lines.Translate(upload)
  }

  /** An upload queues its comments after the old ones, whether or not the
      old contents ended with a line break. */
  lemma UploadQueues(prev: Option<string>, upload: string)
    ensures Lines.Load(UploadFile(prev, upload)) == Lines.LoadFile(prev) + Lines.Load(upload)
  {
    var t := prev.GetOr("");
    Lines.LoadSeparated(t, Lines.Translate(upload));
    Lines.TranslateIdentity(Lines.Translate(upload));
    LoadMissing(prev);
  }
}

=== FILE: env.dfy ===
/**
 * The dashboard's handling of the `.env` credentials file (controller.py):
 * masking a secret for display, reading one account's four secrets,
 * creating or replacing one `KEY=value` line, and deleting an account's lines.
 */
module Env {
  import opened Wrappers
  import opened Text
  import Lines

  /** `mask_token`: short values are shown whole, longer ones as their first
      four and last four characters around "...". */
  function MaskToken(value: string): (r: string)
    ensures value == [] ==> r == []
    ensures |value| <= 8 ==> r == value
    ensures |value| > 8 ==> |r| == 11 && r[..4] == value[..4] && r[4..7] == "..." && r[7..] == value[|value| - 4..]
  {
    if value == [] then ""
    else if |value| <= 8 then value
    else value[..4] + "..." + value[|value| - 4..]
  }

  /** Two long secrets that share their first and last four characters look
      the same once masked: nothing of the middle is shown. */
  lemma MaskHidesMiddle(v: string, w: string)
    requires |v| > 8 && |w| > 8
    requires v[..4] == w[..4] && v[|v| - 4..] == w[|w| - 4..]
    ensures MaskToken(v) == MaskToken(w)
  {
  }

  /** Masking a masked value changes nothing. */
  lemma MaskIdempotent(v: string)
    ensures MaskToken(MaskToken(v)) == MaskToken(v)
  {
    if |v| > 8 {
      var m := MaskToken(v);
      assert m == m[..4] + "..." + m[7..];
    }
  }

  /** The four secrets of an account. */
  datatype Field = ConsumerKey | ConsumerSecret | AccessToken | AccessTokenSecret

  function Name(f: Field): string {
    match f
    case ConsumerKey => "CONSUMER_KEY"
    case ConsumerSecret => "CONSUMER_SECRET"
    case AccessToken => "ACCESS_TOKEN"
    case AccessTokenSecret => "ACCESS_TOKEN_SECRET"
  }

  /** `f"{NAME}_{account_id}"`. */
  function EnvKey(f: Field, id: int): string {
    Name(f) + "_" + IntToString(id)
  }

  /** A key usable in a `KEY=value` line: no '=' inside. */
  predicate NoEq(key: string) {
    '=' !in key
  }

  /** A key `update_env_variable` can write and read back: nonempty, not
      starting with whitespace, no '=' and no line break inside. */
  predicate KeyOk(key: string) {
    key != [] && !IsSpace(key[0]) && NoEq(key) && '\n' !in key && '\r' !in key
  }

  /** A value that survives the round trip through `.env`: already stripped
      (as `update_tokens` leaves it) and on one line. */
  predicate ValueOk(value: string) {
    Trimmed(value) && '\n' !in value && '\r' !in value
  }

  /** The characters generated keys are made of. */
  predicate KeyChar(c: char) {
    ('A' <= c <= 'Z') || c == '_' || IsDigit(c) || c == '-'
  }

  predicate KeyChars(s: string) {
    forall i :: 0 <= i < |s| ==> KeyChar(s[i])
  }

  lemma KeyCharsConcat(a: string, b: string)
    requires KeyChars(a) && KeyChars(b)
    ensures KeyChars(a + b)
  {
    assert forall i :: 0 <= i < |a + b| ==> (a + b)[i] == if i < |a| then a[i] else b[i - |a|];
  }

  lemma NameKeyChars(f: Field)
    ensures Name(f) != [] && KeyChars(Name(f))
  {
  }

  /** Every generated key can be written to and read back from `.env`. */
  lemma EnvKeyOk(f: Field, id: int)
    ensures KeyOk(EnvKey(f, id))
  {
    NameKeyChars(f);
    KeyCharsConcat(Name(f), "_");
    KeyCharsConcat(Name(f) + "_", IntToString(id));
    var k := EnvKey(f, id);
    forall i | 0 <= i < |k|
      ensures k[i] != '=' && k[i] != '\n' && k[i] != '\r'
    {
      assert KeyChar(k[i]);
    }
    assert KeyChar(k[0]);
  }

  /** Keys for different fields differ, whatever the two account ids. */
  lemma EnvKeysDistinct(f: Field, a: int, g: Field, b: int)
    requires f != g
    ensures EnvKey(f, a) != EnvKey(g, b)
  {
    var kf, kg := EnvKey(f, a), EnvKey(g, b);
    if {f, g} == {ConsumerKey, ConsumerSecret} {
      assert kf[9] != kg[9];
    } else if {f, g} == {AccessToken, AccessTokenSecret} {
      assert kf[13] != kg[13];
    } else {
      assert kf[0] != kg[0];
    }
  }

  /** A key names one field of one account. */
  lemma EnvKeyInjective(f: Field, a: int, g: Field, b: int)
    requires EnvKey(f, a) == EnvKey(g, b)
    ensures f == g && a == b
  {
    if f == g {
      var k := EnvKey(f, a);
      assert IntToString(a) == k[|Name(f)| + 1..] == IntToString(b);
      IntToStringInjective(a, b);
    } else {
      EnvKeysDistinct(f, a, g, b);
    }
  }

  /** `line.split("=", 1)[1]`: what follows the first '='. */
  function AfterFirstEq(s: string): string {
    if s == [] then [] else if s[0] == '=' then s[1..] else AfterFirstEq(s[1..])
  }

  lemma {:induction false} AfterKeyPrefix(s: string, key: string)
    requires NoEq(key) && StartsWith(s, key + "=")
    ensures AfterFirstEq(s) == s[|key| + 1..]
    decreases |key|
  {
    if key != [] {
      assert s[0] == key[0];
      assert StartsWith(s[1..], key[1..] + "=") by {
        assert s[1..][..|key[1..] + "="|] == s[..|key| + 1][1..];
      }
      AfterKeyPrefix(s[1..], key[1..]);
    } else {
      assert s[0] == '=';
    }
  }

  /** A line starts with `k1=` and with `k2=` only if the keys are equal. */
  lemma KeyPrefixesExclusive(line: string, k1: string, k2: string)
    requires NoEq(k1) && NoEq(k2)
    requires StartsWith(line, k1 + "=") && StartsWith(line, k2 + "=")
    ensures k1 == k2
  {
    AfterKeyPrefix(line, k1);
    AfterKeyPrefix(line, k2);
    assert k1 == line[..|k1|] == k2;
  }

  /** One account's secrets as the dashboard shows them. */
  datatype Tokens = Tokens(consumerKey: string, consumerSecret: string, accessToken: string, accessTokenSecret: string)

  const Blank := Tokens("", "", "", "")

  function Get(t: Tokens, f: Field): string {
    match f
    case ConsumerKey => t.consumerKey
    case ConsumerSecret => t.consumerSecret
    case AccessToken => t.accessToken
    case AccessTokenSecret => t.accessTokenSecret
  }

  function Set(t: Tokens, f: Field, v: string): (r: Tokens)
    ensures Get(r, f) == v
    ensures forall g :: g != f ==> Get(r, g) == Get(t, g)
  {
    match f
    case ConsumerKey => t.(consumerKey := v)
    case ConsumerSecret => t.(consumerSecret := v)
    case AccessToken => t.(accessToken := v)
    case AccessTokenSecret => t.(accessTokenSecret := v)
  }

  /** The `if/elif` chain of `load_env_tokens` on one stripped line. */
  function Matched(line: string, id: int): Option<Field> {
    if StartsWith(line, EnvKey(ConsumerKey, id) + "=") then Some(ConsumerKey)
    else if StartsWith(line, EnvKey(ConsumerSecret, id) + "=") then Some(ConsumerSecret)
    else if StartsWith(line, EnvKey(AccessToken, id) + "=") then Some(AccessToken)
    else if StartsWith(line, EnvKey(AccessTokenSecret, id) + "=") then Some(AccessTokenSecret)
    else None
  }

  /** Since the four prefixes exclude one another, the chain picks field `f`
      exactly when the line starts with `f`'s prefix. */
  lemma MatchedExactly(line: string, id: int, f: Field)
    ensures Matched(line, id) == Some(f) <==> StartsWith(line, EnvKey(f, id) + "=")
  {
    forall g | g != f && StartsWith(line, EnvKey(f, id) + "=") && StartsWith(line, EnvKey(g, id) + "=")
      ensures false
    {
      EnvKeyOk(f, id);
      EnvKeyOk(g, id);
      KeyPrefixesExclusive(line, EnvKey(f, id), EnvKey(g, id));
      EnvKeysDistinct(f, id, g, id);
    }
  }

  function ApplyLine(t: Tokens, line: string, id: int): Tokens {
    match Matched(line, id)
    case None => t
    case Some(f) => Set(t, f, MaskToken(AfterFirstEq(line)))
  }

  /** The loop of `load_env_tokens` over the lines of `.env`, each stripped first. */
  function Scan(t: Tokens, lines: seq<string>, id: int): Tokens
    decreases |lines|
  {
    if lines == [] then t else Scan(ApplyLine(t, Strip(lines[0]), id), lines[1..], id)
  }

  /** `load_env_tokens`: blank when `.env` is missing. */
  function LoadEnvTokens(env: Option<string>, id: int): Tokens {
    match env
    case None => Blank
    case Some(raw) => Scan(Blank, Lines.ReadLines(raw), id)
  }

  /** What a line says about `key`: the text after `key=` when the stripped
      line starts with it. */
  function ValueFor(line: string, key: string): Option<string> {
    var s := Strip(line);
    if StartsWith(s, key + "=") then Some(s[|key| + 1..]) else None
  }

  /** The value the last line mentioning `key` gives it. */
  function LastValue(lines: seq<string>, key: string): Option<string>
    decreases |lines|
  {
    if lines == [] then None
    else
      var later := LastValue(lines[1..], key);
      if later.Some? then later else ValueFor(lines[0], key)
  }

  /** What the dashboard shows for a field whose last value is `v`. */
  function Shown(v: Option<string>): string {
    match v
    case None => ""
    case Some(x) => MaskToken(x)
  }

  /** The field as shown after a value `v` for it, when there is one;
      `other` when there is none. */
  function ShownOr(v: Option<string>, other: string): string {
    if v.Some? then Shown(v) else other
  }

  /** One line sets field `f` exactly when, stripped, it starts with `f`'s
      key and '=', and then to the masked rest of the stripped line. */
  lemma ApplyLineField(t: Tokens, l: string, id: int, f: Field)
    ensures Get(ApplyLine(t, Strip(l), id), f) == ShownOr(ValueFor(l, EnvKey(f, id)), Get(t, f))
  {
    var s := Strip(l);
    MatchedExactly(s, id, f);
    if StartsWith(s, EnvKey(f, id) + "=") {
      EnvKeyOk(f, id);
      AfterKeyPrefix(s, EnvKey(f, id));
    }
  }

  /** The value a line gives, unless a later one gives another. */
  lemma LastValueCons(lines: seq<string>, key: string)
    requires lines != []
    ensures LastValue(lines, key) == if LastValue(lines[1..], key).Some? then LastValue(lines[1..], key) else ValueFor(lines[0], key)
  {
  }

  lemma {:induction false} ScanShowsLastValue(t: Tokens, lines: seq<string>, id: int, f: Field)
    ensures Get(Scan(t, lines, id), f) == ShownOr(LastValue(lines, EnvKey(f, id)), Get(t, f))
    decreases |lines|
  {
    if lines != [] {
      var k := EnvKey(f, id);
      var t' := ApplyLine(t, Strip(lines[0]), id);
      calc {
        Get(Scan(t, lines, id), f);
        Get(Scan(t', lines[1..], id), f);
        { ScanShowsLastValue(t', lines[1..], id, f); }
        ShownOr(LastValue(lines[1..], k), Get(t', f));
        { ApplyLineField(t, lines[0], id, f); }
        ShownOr(LastValue(lines[1..], k), ShownOr(ValueFor(lines[0], k), Get(t, f)));
        { LastValueCons(lines, k); }
        ShownOr(LastValue(lines, k), Get(t, f));
      }
    }
  }

  /** Each field shows the masked text after `<NAME>_<id>=` on the last line
      that starts with it, and is empty when no line does. */
  lemma LoadEnvTokensShowsLastValue(env: Option<string>, id: int, f: Field)
    ensures Get(LoadEnvTokens(env, id), f) ==
            match env
            case None => ""
            case Some(raw) => Shown(LastValue(Lines.ReadLines(raw), EnvKey(f, id)))
  {
    if env.Some? {
      ScanShowsLastValue(Blank, Lines.ReadLines(env.value), id, f);
    }
  }

  // ----- Facts about the last value of a key -----

  lemma {:induction false} LastValueAppend(ls: seq<string>, l: string, key: string)
    ensures LastValue(ls + [l], key) == if ValueFor(l, key).Some? then ValueFor(l, key) else LastValue(ls, key)
    decreases |ls|
  {
    if ls != [] {
      assert (ls + [l])[1..] == ls[1..] + [l];
      LastValueAppend(ls[1..], l, key);
    }
  }

  /** Lines that agree on what they say about `key` give it the same last value. */
  lemma {:induction false} LastValuePointwise(xs: seq<string>, ys: seq<string>, key: string)
    requires |xs| == |ys|
    requires forall i :: 0 <= i < |xs| ==> ValueFor(xs[i], key) == ValueFor(ys[i], key)
    ensures LastValue(xs, key) == LastValue(ys, key)
    decreases |xs|
  {
    if xs != [] {
      LastValuePointwise(xs[1..], ys[1..], key);
    }
  }

  /** A line giving `key` a value makes its last value present. */
  lemma {:induction false} LastValueFound(ls: seq<string>, key: string, j: nat)
    requires j < |ls| && ValueFor(ls[j], key).Some?
    ensures LastValue(ls, key).Some?
    decreases |ls|
  {
    LastValueCons(ls, key);
    if j > 0 {
      assert ls[1..][j - 1] == ls[j];
      LastValueFound(ls[1..], key, j - 1);
    }
  }

  /** When every line mentioning `key` gives it `v`, and one does, its last value is `v`. */
  lemma LastValueUniform(ls: seq<string>, key: string, v: string, j: nat)
    requires forall i :: 0 <= i < |ls| ==> ValueFor(ls[i], key).None? || ValueFor(ls[i], key) == Some(v)
    requires j < |ls| && ValueFor(ls[j], key) == Some(v)
    ensures LastValue(ls, key) == Some(v)
  {
    LastValueFound(ls, key, j);
    LastValueSome(ls, key);
  }

  /** A last value comes from some line. */
  lemma {:induction false} LastValueSome(ls: seq<string>, key: string)
    requires LastValue(ls, key).Some?
    ensures exists i :: 0 <= i < |ls| && ValueFor(ls[i], key) == LastValue(ls, key)
    decreases |ls|
  {
    if LastValue(ls[1..], key).Some? {
      LastValueSome(ls[1..], key);
      var i :| 0 <= i < |ls[1..]| && ValueFor(ls[1..][i], key) == LastValue(ls[1..], key);
      assert ValueFor(ls[i + 1], key) == LastValue(ls, key);
    } else {
      assert ValueFor(ls[0], key) == LastValue(ls, key);
    }
  }

  // ----- update_env_variable -----

  /** A line of `.env` that is blank or does not start with whitespace;
      `update_env_variable` and `reset_tokens` look at raw lines while
      `load_env_tokens` strips them, and on such lines the two views agree. */
  predicate Unindented(l: string) {
    l == [] || !IsSpace(l[0]) || Strip(l) == []
  }

  predicate AllUnindented(ls: seq<string>) {
    forall i :: 0 <= i < |ls| ==> Unindented(ls[i])
  }

  /** On an unindented line, the stripped line starts with `key=` only if
      the raw line does. */
  lemma UnindentedPrefix(l: string, key: string)
    requires Unindented(l)
    requires ValueFor(l, key).Some?
    ensures StartsWith(l, key + "=")
  {
    StrippedPrefix(l, key + "=");
  }

  /** A line that starts with a well-formed key and '=' is unindented. */
  lemma ClearedUnindented(l: string, key: string)
    requires KeyOk(key) && StartsWith(l, key + "=")
    ensures Unindented(l)
  {
    assert l[0] == l[..|key| + 1][0] == (key + "=")[0] == key[0];
  }

  /** The lines of `.env`; none when the file does not exist. */
  function EnvLines(env: Option<string>): (ls: seq<string>)
    ensures Lines.WellFormed(ls)
    ensures forall i :: 0 <= i < |ls| ==> '\r' !in ls[i]
  {
    match env
    case None => []
    case Some(raw) => Lines.ReadLines(raw)
  }

  /** `f"{key}={value}\n"`. */
  function Entry(key: string, value: string): string {
    key + "=" + value + "\n"
  }

  /** The entry line sets `key` to `value` and no other key. */
  lemma EntryValue(key: string, value: string, other: string)
    requires KeyOk(key) && ValueOk(value) && NoEq(other)
    ensures ValueFor(Entry(key, value), other) == if other == key then Some(value) else None
  {
    var s := key + "=" + value;
    assert Trimmed(s) by {
      assert s[0] == key[0];
      if value != [] {
        assert s[|s| - 1] == value[|value| - 1];
      }
    }
    StripAppendSpace(s, '\n');
    assert Strip(Entry(key, value)) == s;
    assert StartsWith(s, key + "=");
    assert s[|key| + 1..] == value;
    if other != key && StartsWith(s, other + "=") {
      KeyPrefixesExclusive(s, key, other);
    }
  }

  /** Whether some line starts with `key=`: the loop's `found` flag. */
  predicate Mentions(lines: seq<string>, key: string) {
    exists i :: 0 <= i < |lines| && StartsWith(lines[i], key + "=")
  }

  /** One line after the loop: the entry if it started with `key=`, else itself. */
  function Rewrite(l: string, key: string, value: string): string {
    if StartsWith(l, key + "=") then Entry(key, value) else l
  }

  /** The loop of `update_env_variable`, line by line. */
  function ReplaceKey(lines: seq<string>, key: string, value: string): (r: seq<string>)
    ensures |r| == |lines|
    ensures forall i :: 0 <= i < |lines| ==> r[i] == Rewrite(lines[i], key, value)
    decreases |lines|
  {
    if lines == [] then [] else [Rewrite(lines[0], key, value)] + ReplaceKey(lines[1..], key, value)
  }

  /** `update_env_variable` on the lines of `.env`, as written: every line that
      starts with `key=` becomes the entry, every other line is kept in place,
      and when no line matched the entry is appended after the last line. */
  function UpdateLinesAsWritten(lines: seq<string>, key: string, value: string): (r: seq<string>)
    ensures |r| == |lines| + (if Mentions(lines, key) then 0 else 1)
    ensures forall i :: 0 <= i < |lines| ==>
              r[i] == (if StartsWith(lines[i], key + "=") then Entry(key, value) else lines[i])
    ensures !Mentions(lines, key) ==> r[|lines|] == Entry(key, value)
  {
    var buf := ReplaceKey(lines, key, value);
    if Mentions(lines, key) then buf else buf + [Entry(key, value)]
  }

  /** The file `update_env_variable` writes, as written. */
  function UpdateEnvAsWritten(env: Option<string>, key: string, value: string): string {
    Lines.Join(UpdateLinesAsWritten(EnvLines(env), key, value))
  }

  /** A line with a line break at its end. */
  function EndLine(l: string): (r: string)
    ensures r != [] && r[|r| - 1] == '\n'
  {
    if l != [] && l[|l| - 1] == '\n' then l else l + "\n"
  }

  /** `lines` with the last one ended by a line break. */
  function Terminate(lines: seq<string>): (r: seq<string>)
    ensures |r| == |lines|
    ensures forall i :: 0 <= i < |lines| - 1 ==> r[i] == lines[i]
    ensures lines != [] ==> r[|lines| - 1] == EndLine(lines[|lines| - 1])
  {
    if lines == [] then [] else lines[..|lines| - 1] + [EndLine(lines[|lines| - 1])]
  }

  /** `update_env_variable` with the append fixed: when the entry is appended,
      an unterminated last line is ended first, so the entry starts a line. */
  function UpdateLines(lines: seq<string>, key: string, value: string): (r: seq<string>)
    ensures |r| == |lines| + (if Mentions(lines, key) then 0 else 1)
    ensures forall i :: 0 <= i < |lines| ==>
              r[i] == (if StartsWith(lines[i], key + "=") then Entry(key, value)
                       else if !Mentions(lines, key) && i == |lines| - 1 then EndLine(lines[i])
                       else lines[i])
    ensures !Mentions(lines, key) ==> r[|lines|] == Entry(key, value)
  {
    var buf := ReplaceKey(lines, key, value);
    if Mentions(lines, key) then buf else Terminate(buf) + [Entry(key, value)]
  }

  /** The file `update_env_variable` writes, corrected. */
  function UpdateEnv(env: Option<string>, key: string, value: string): string {
    Lines.Join(UpdateLines(EnvLines(env), key, value))
  }

  /** Ending a line with a break changes neither what it says nor its indentation. */
  lemma EndLineSame(l: string, key: string)
    ensures ValueFor(EndLine(l), key) == ValueFor(l, key)
    ensures Unindented(l) ==> Unindented(EndLine(l))
  {
    if l == [] {
      assert IsSpace('\n') && "\n"[..0] == [];
      assert StripRight("\n") == [];
      assert EndLine(l) == "\n";
    } else if EndLine(l) != l {
      StripAppendSpace(l, '\n');
    }
  }

  /** What one rewritten line says about any key `k`. */
  lemma RewriteValue(l: string, key: string, value: string, k: string)
    requires KeyOk(key) && ValueOk(value) && NoEq(k) && Unindented(l)
    ensures ValueFor(Rewrite(l, key, value), k) ==
            if k == key then (if StartsWith(l, key + "=") then Some(value) else None) else ValueFor(l, k)
    ensures Unindented(Rewrite(l, key, value))
  {
    EntryValue(key, value, k);
    EntryValue(key, value, key);
    if ValueFor(l, k).Some? {
      UnindentedPrefix(l, k);
      if StartsWith(l, key + "=") {
        KeyPrefixesExclusive(l, key, k);
      }
    }
  }

  /** The corrected update writes well-formed lines with no carriage return,
      which `readlines` gives back unchanged. */
  lemma UpdateLinesReadBack(lines: seq<string>, key: string, value: string)
    requires Lines.WellFormed(lines) && forall i :: 0 <= i < |lines| ==> '\r' !in lines[i]
    requires KeyOk(key) && ValueOk(value)
    ensures Lines.ReadLines(Lines.Join(UpdateLines(lines, key, value))) == UpdateLines(lines, key, value)
  {
    var r := UpdateLines(lines, key, value);
    forall i | 0 <= i < |r|
      ensures Lines.IsLine(r[i]) && '\r' !in r[i]
      ensures i < |r| - 1 ==> r[i][|r[i]| - 1] == '\n'
    {
      UpdatedLineShape(lines, key, value, i);
    }
    Lines.ReadJoin(r);
  }

  /** Every line the corrected update writes is a line without a carriage
      return, and every one but the last ends with a break. */
  lemma UpdatedLineShape(lines: seq<string>, key: string, value: string, i: nat)
    requires Lines.WellFormed(lines) && forall i :: 0 <= i < |lines| ==> '\r' !in lines[i]
    requires KeyOk(key) && ValueOk(value)
    requires i < |UpdateLines(lines, key, value)|
    ensures var r := UpdateLines(lines, key, value);
            Lines.IsLine(r[i]) && '\r' !in r[i] && (i < |r| - 1 ==> r[i][|r[i]| - 1] == '\n')
  {
    var r := UpdateLines(lines, key, value);
    var e := Entry(key, value);
    EntryIsLine(key, value);
    if i == |lines| {
      assert r[i] == e;
    } else {
      assert Lines.IsLine(lines[i]) && '\r' !in lines[i];
      EndLineIsLine(lines[i]);
      if StartsWith(lines[i], key + "=") {
        assert r[i] == e;
      } else if !Mentions(lines, key) && i == |lines| - 1 {
        assert r[i] == EndLine(lines[i]);
      } else {
        assert r[i] == lines[i];
        if i < |r| - 1 {
          assert i < |lines| - 1;
        }
      }
    }
  }

  /** The entry is one line, ended by a break. */
  lemma EntryIsLine(key: string, value: string)
    requires KeyOk(key) && ValueOk(value)
    ensures var e := Entry(key, value); Lines.IsLine(e) && '\r' !in e && e[|e| - 1] == '\n'
  {
    var e := Entry(key, value);
    assert e[..|e| - 1] == key + "=" + value;
  }

  /** Ending a line with a break keeps it a line without carriage returns. */
  lemma EndLineIsLine(l: string)
    requires Lines.IsLine(l) && '\r' !in l
    ensures Lines.IsLine(EndLine(l)) && '\r' !in EndLine(l)
  {
    if EndLine(l) != l {
      assert EndLine(l)[..|l|] == l;
    }
  }

  /** Line `i` of the corrected update is the rewritten line, or, for a line
      that does not start with `key=`, that line ended with a break. */
  lemma UpdateLinesAt(lines: seq<string>, key: string, value: string, i: nat)
    requires i < |lines|
    ensures var m := UpdateLines(lines, key, value)[i];
            m == Rewrite(lines[i], key, value) || (!StartsWith(lines[i], key + "=") && m == EndLine(lines[i]))
  {
  }

  /** What an updated line says about any key `k`. */
  lemma RewrittenSays(l: string, m: string, key: string, value: string, k: string)
    requires m == Rewrite(l, key, value) || (!StartsWith(l, key + "=") && m == EndLine(l))
    requires KeyOk(key) && ValueOk(value) && NoEq(k) && Unindented(l)
    ensures ValueFor(m, k) ==
            if k == key then (if StartsWith(l, key + "=") then Some(value) else None) else ValueFor(l, k)
    ensures Unindented(m)
  {
    RewriteValue(l, key, value, k);
    if m != Rewrite(l, key, value) {
      EndLineSame(l, k);
    }
  }

  /** What an updated line says about a key other than the written one, on
      a line of any indentation. */
  lemma RewriteOther(l: string, m: string, key: string, value: string, k: string)
    requires m == Rewrite(l, key, value) || (!StartsWith(l, key + "=") && m == EndLine(l))
    requires KeyOk(key) && ValueOk(value) && NoEq(k) && k != key
    ensures ValueFor(m, k) == ValueFor(l, k)
  {
    if StartsWith(l, key + "=") {
      ClearedUnindented(l, key);
      RewrittenSays(l, m, key, value, k);
    } else if m != l {
      EndLineSame(l, k);
    }
  }

  /** On the lines themselves, the corrected update gives `key` the value
      `value` and keeps every line unindented. */
  lemma UpdateLinesSetsKey(lines: seq<string>, key: string, value: string)
    requires KeyOk(key) && ValueOk(value) && AllUnindented(lines)
    ensures LastValue(UpdateLines(lines, key, value), key) == Some(value)
    ensures AllUnindented(UpdateLines(lines, key, value))
  {
    var r := UpdateLines(lines, key, value);
    EntryValue(key, value, key);
    forall i | 0 <= i < |r|
      ensures ValueFor(r[i], key).None? || ValueFor(r[i], key) == Some(value)
      ensures Unindented(r[i])
    {
      if i < |lines| {
        UpdateLinesAt(lines, key, value, i);
        RewrittenSays(lines[i], r[i], key, value, key);
      } else {
        assert r[i] == Entry(key, value);
        assert r[i][0] == key[0];
      }
    }
    if Mentions(lines, key) {
      var j :| 0 <= j < |lines| && StartsWith(lines[j], key + "=");
      UpdateLinesAt(lines, key, value, j);
      RewrittenSays(lines[j], r[j], key, value, key);
      LastValueUniform(r, key, value, j);
    } else {
      LastValueUniform(r, key, value, |lines|);
    }
  }

  /** After the corrected update, `.env` gives `key` the value `value`. */
  lemma UpdateSetsKey(env: Option<string>, key: string, value: string)
    requires KeyOk(key) && ValueOk(value) && AllUnindented(EnvLines(env))
    ensures LastValue(EnvLines(Some(UpdateEnv(env, key, value))), key) == Some(value)
    ensures AllUnindented(EnvLines(Some(UpdateEnv(env, key, value))))
  {
    UpdateLinesReadBack(EnvLines(env), key, value);
    UpdateLinesSetsKey(EnvLines(env), key, value);
  }

  /** Line by line, the corrected update says the same about every other key. */
  lemma UpdateLinesPointwise(lines: seq<string>, key: string, value: string, other: string)
    requires KeyOk(key) && ValueOk(value)
    requires NoEq(other) && other != key
    ensures forall i :: 0 <= i < |lines| ==>
              ValueFor(UpdateLines(lines, key, value)[i], other) == ValueFor(lines[i], other)
  {
    var r := UpdateLines(lines, key, value);
    forall i | 0 <= i < |lines|
      ensures ValueFor(r[i], other) == ValueFor(lines[i], other)
    {
      UpdateLinesAt(lines, key, value, i);
      RewriteOther(lines[i], r[i], key, value, other);
    }
  }

  /** On the lines themselves, the corrected update leaves every other key's value. */
  lemma UpdateLinesKeepsOther(lines: seq<string>, key: string, value: string, other: string)
    requires KeyOk(key) && ValueOk(value)
    requires NoEq(other) && other != key
    ensures LastValue(UpdateLines(lines, key, value), other) == LastValue(lines, other)
  {
    var r := UpdateLines(lines, key, value);
    UpdateLinesPointwise(lines, key, value, other);
    if Mentions(lines, key) {
      LastValuePointwise(r, lines, other);
    } else {
      var e := Entry(key, value);
      assert r == r[..|lines|] + [e];
      LastValuePointwise(r[..|lines|], lines, other);
      EntryValue(key, value, other);
      LastValueAppend(r[..|lines|], e, other);
    }
  }

  /** The corrected update leaves the value of every other key as it was. */
  lemma UpdateKeepsOtherKeys(env: Option<string>, key: string, value: string, other: string)
    requires KeyOk(key) && ValueOk(value)
    requires NoEq(other) && other != key
    ensures LastValue(EnvLines(Some(UpdateEnv(env, key, value))), other) == LastValue(EnvLines(env), other)
  {
    UpdateLinesReadBack(EnvLines(env), key, value);
    UpdateLinesKeepsOther(EnvLines(env), key, value, other);
  }

  /** Ending a line does not make it start with `key=`. */
  lemma EndLineKeepsKey(l: string, key: string)
    requires KeyOk(key) && !StartsWith(l, key + "=")
    ensures !StartsWith(EndLine(l), key + "=")
  {
    if EndLine(l) != l && |l| >= |key| + 1 {
      assert l[..|key| + 1] == EndLine(l)[..|key| + 1];
    }
  }

  /** A line list the loop leaves alone. */
  lemma ReplaceKeyFixed(ls: seq<string>, key: string, value: string)
    requires forall i :: 0 <= i < |ls| ==> Rewrite(ls[i], key, value) == ls[i]
    ensures ReplaceKey(ls, key, value) == ls
  {
  }

  /** Every line the corrected update writes is one it would rewrite to itself,
      and it writes at least one line with `key=`. */
  lemma UpdateLinesStable(lines: seq<string>, key: string, value: string)
    requires KeyOk(key)
    ensures forall i :: 0 <= i < |UpdateLines(lines, key, value)| ==>
              Rewrite(UpdateLines(lines, key, value)[i], key, value) == UpdateLines(lines, key, value)[i]
    ensures Mentions(UpdateLines(lines, key, value), key)
  {
    var r := UpdateLines(lines, key, value);
    var e := Entry(key, value);
    assert StartsWith(e, key + "=");
    forall i | 0 <= i < |r|
      ensures Rewrite(r[i], key, value) == r[i]
    {
      if i < |lines| && !StartsWith(lines[i], key + "=") {
        EndLineKeepsKey(lines[i], key);
      }
    }
    if Mentions(lines, key) {
      var j :| 0 <= j < |lines| && StartsWith(lines[j], key + "=");
      assert StartsWith(r[j], key + "=");
    } else {
      assert StartsWith(r[|lines|], key + "=");
    }
  }

  /** Running the corrected update twice writes what running it once did. */
  lemma UpdateIdempotent(env: Option<string>, key: string, value: string)
    requires KeyOk(key) && ValueOk(value)
    ensures UpdateEnv(Some(UpdateEnv(env, key, value)), key, value) == UpdateEnv(env, key, value)
  {
    var lines := EnvLines(env);
    var r := UpdateLines(lines, key, value);
    UpdateLinesReadBack(lines, key, value);
    assert EnvLines(Some(UpdateEnv(env, key, value))) == r;
    UpdateLinesStable(lines, key, value);
    ReplaceKeyFixed(r, key, value);
    assert UpdateLines(r, key, value) == r;
  }

  /** The last line of `.env` ends with a line break, or there is no line. */
  predicate EndsWithBreak(lines: seq<string>) {
    lines == [] || (lines[|lines| - 1] != [] && lines[|lines| - 1][|lines[|lines| - 1]| - 1] == '\n')
  }

  /** When the last line already ends with a break, the program's update and
      the corrected one write the same lines, and those again end with a break. */
  lemma UpdateLinesAgree(lines: seq<string>, key: string, value: string)
    requires EndsWithBreak(lines)
    ensures UpdateLinesAsWritten(lines, key, value) == UpdateLines(lines, key, value)
    ensures EndsWithBreak(UpdateLines(lines, key, value))
  {
    var buf := ReplaceKey(lines, key, value);
    ReplaceKeyEnds(lines, key, value);
    TerminateFixed(buf);
    if !Mentions(lines, key) {
      var e := Entry(key, value);
      assert UpdateLines(lines, key, value) == buf + [e];
      assert (buf + [e])[|buf|] == e;
    }
  }

  /** The loop keeps a final line break: the entry ends with one. */
  lemma ReplaceKeyEnds(lines: seq<string>, key: string, value: string)
    requires EndsWithBreak(lines)
    ensures EndsWithBreak(ReplaceKey(lines, key, value))
  {
    if lines != [] {
      var n := |lines| - 1;
      var m := Rewrite(lines[n], key, value);
      assert ReplaceKey(lines, key, value)[n] == m;
      if m != lines[n] {
        EntryEnds(key, value);
      }
    }
  }

  lemma EntryEnds(key: string, value: string)
    ensures var e := Entry(key, value); e != [] && e[|e| - 1] == '\n'
  {
  }

  /** Lines already ending with a break are left alone by `Terminate`. */
  lemma TerminateFixed(lines: seq<string>)
    requires EndsWithBreak(lines)
    ensures Terminate(lines) == lines
  {
    if lines != [] {
      var n := |lines| - 1;
      assert EndLine(lines[n]) == lines[n];
      assert lines[..n] + [lines[n]] == lines;
    }
  }

  /** On an `.env` whose last line ends with a break, `update_env_variable`
      as written writes what the corrected update writes, for any key and
      value. */
  lemma UpdateEnvAgrees(env: Option<string>, key: string, value: string)
    requires EndsWithBreak(EnvLines(env))
    ensures UpdateEnvAsWritten(env, key, value) == UpdateEnv(env, key, value)
  {
    UpdateLinesAgree(EnvLines(env), key, value);
  }

  /** On an `.env` whose last line ends with a break, `update_env_variable`
      as written is the corrected update, and for a well-formed key and value
      it leaves the file ending with a break. */
  lemma UpdateAgrees(env: Option<string>, key: string, value: string)
    requires KeyOk(key) && ValueOk(value) && EndsWithBreak(EnvLines(env))
    ensures UpdateEnvAsWritten(env, key, value) == UpdateEnv(env, key, value)
    ensures EndsWithBreak(EnvLines(Some(UpdateEnv(env, key, value))))
  {
    UpdateEnvAgrees(env, key, value);
    UpdateLinesAgree(EnvLines(env), key, value);
    UpdateLinesReadBack(EnvLines(env), key, value);
  }

  /** `update_env_variable` as written, on an `.env` that is missing, empty or
      ends with a line break: `key` then reads as `value` and every other key
      keeps its value. */
  lemma UpdateAsWrittenSetsKey(env: Option<string>, key: string, value: string, other: string)
    requires KeyOk(key) && ValueOk(value) && AllUnindented(EnvLines(env)) && EndsWithBreak(EnvLines(env))
    requires NoEq(other) && other != key
    ensures LastValue(EnvLines(Some(UpdateEnvAsWritten(env, key, value))), key) == Some(value)
    ensures LastValue(EnvLines(Some(UpdateEnvAsWritten(env, key, value))), other) == LastValue(EnvLines(env), other)
  {
    UpdateAgrees(env, key, value);
    UpdateSetsKey(env, key, value);
    UpdateKeepsOtherKeys(env, key, value, other);
  }

  /** The updates of `update_tokens` for the fields `fs`, in order, each value
      stripped, each through `update_env_variable` as written. */
  function UpdateFields(env: Option<string>, id: int, values: Tokens, fs: seq<Field>): (r: Option<string>)
    ensures fs != [] ==> r.Some?
    decreases |fs|
  {
    if fs == [] then env
    else UpdateFields(Some(UpdateEnvAsWritten(env, EnvKey(fs[0], id), Strip(Get(values, fs[0])))), id, values, fs[1..])
  }

  /** `update_tokens`: the consumer key, consumer secret, access token and
      access token secret of one account, in that order. */
  function UpdateTokens(env: Option<string>, id: int, values: Tokens): string {
    UpdateFields(env, id, values, [ConsumerKey, ConsumerSecret, AccessToken, AccessTokenSecret]).value
  }

  /** Values a form may submit: one line once stripped. */
  predicate OneLine(t: Tokens) {
    forall f :: '\n' !in Strip(Get(t, f)) && '\r' !in Strip(Get(t, f))
  }

  lemma {:induction false} UpdateFieldsValues(env: Option<string>, id: int, values: Tokens, fs: seq<Field>, k: string)
    requires AllUnindented(EnvLines(env)) && EndsWithBreak(EnvLines(env)) && OneLine(values) && NoEq(k)
    ensures AllUnindented(EnvLines(UpdateFields(env, id, values, fs)))
    ensures EndsWithBreak(EnvLines(UpdateFields(env, id, values, fs)))
    ensures LastValue(EnvLines(UpdateFields(env, id, values, fs)), k) ==
            if exists f :: f in fs && k == EnvKey(f, id)
            then (var f :| f in fs && k == EnvKey(f, id); Some(Strip(Get(values, f))))
            else LastValue(EnvLines(env), k)
    decreases |fs|
  {
    if fs != [] {
      var g := fs[0];
      var key, v := EnvKey(g, id), Strip(Get(values, g));
      EnvKeyOk(g, id);
      var env' := Some(UpdateEnv(env, key, v));
      UpdateAgrees(env, key, v);
      UpdateSetsKey(env, key, v);
      if k != key {
        UpdateKeepsOtherKeys(env, key, v, k);
      }
      UpdateFieldsValues(env', id, values, fs[1..], k);
      forall f | f in fs && k == EnvKey(f, id)
        ensures Strip(Get(values, f)) == Strip(Get(values, g)) || f in fs[1..]
      {
        if f != g {
          assert f in fs[1..];
        }
      }
      forall f, f' | k == EnvKey(f, id) && k == EnvKey(f', id)
        ensures f == f'
      {
        EnvKeyInjective(f, id, f', id);
      }
      if k == key {
        assert g in fs && k == EnvKey(g, id);
      }
    }
  }

  /** The updates of fields whose keys differ from `k` leave `k`'s value,
      and keep the file ending with a break, whatever the indentation. */
  lemma {:induction false} FieldsOthers(env: Option<string>, id: int, values: Tokens, fs: seq<Field>, k: string)
    requires EndsWithBreak(EnvLines(env)) && OneLine(values) && NoEq(k)
    requires forall f :: f in fs ==> k != EnvKey(f, id)
    ensures EndsWithBreak(EnvLines(UpdateFields(env, id, values, fs)))
    ensures LastValue(EnvLines(UpdateFields(env, id, values, fs)), k) == LastValue(EnvLines(env), k)
    decreases |fs|
  {
    if fs != [] {
      var g := fs[0];
      var key, v := EnvKey(g, id), Strip(Get(values, g));
      EnvKeyOk(g, id);
      UpdateAgrees(env, key, v);
      UpdateKeepsOtherKeys(env, key, v, k);
      FieldsOthers(Some(UpdateEnv(env, key, v)), id, values, fs[1..], k);
    }
  }

  /** After `update_tokens`, field `f` holds the submitted value, stripped. */
  lemma UpdateTokensField(env: Option<string>, id: int, values: Tokens, f: Field)
    requires AllUnindented(EnvLines(env)) && EndsWithBreak(EnvLines(env)) && OneLine(values)
    ensures Get(LoadEnvTokens(Some(UpdateTokens(env, id, values)), id), f) == MaskToken(Strip(Get(values, f)))
  {
    var fs := [ConsumerKey, ConsumerSecret, AccessToken, AccessTokenSecret];
    var out := UpdateFields(env, id, values, fs);
    assert Some(UpdateTokens(env, id, values)) == out;
    EnvKeyOk(f, id);
    assert f in fs;
    UpdateFieldsValues(env, id, values, fs, EnvKey(f, id));
    forall f' | f' in fs && EnvKey(f, id) == EnvKey(f', id)
      ensures f' == f
    {
      EnvKeyInjective(f, id, f', id);
    }
    LoadEnvTokensShowsLastValue(out, id, f);
  }

  /** After `update_tokens`, the dashboard shows the four submitted values,
      stripped and masked. */
  lemma UpdateTokensShown(env: Option<string>, id: int, values: Tokens)
    requires AllUnindented(EnvLines(env)) && EndsWithBreak(EnvLines(env)) && OneLine(values)
    ensures LoadEnvTokens(Some(UpdateTokens(env, id, values)), id) ==
            Tokens(MaskToken(Strip(values.consumerKey)), MaskToken(Strip(values.consumerSecret)),
                   MaskToken(Strip(values.accessToken)), MaskToken(Strip(values.accessTokenSecret)))
  {
    UpdateTokensField(env, id, values, ConsumerKey);
    UpdateTokensField(env, id, values, ConsumerSecret);
    UpdateTokensField(env, id, values, AccessToken);
    UpdateTokensField(env, id, values, AccessTokenSecret);
  }

  /** `update_tokens` for one account leaves what another account shows as it was. */
  lemma UpdateTokensLeavesOthers(env: Option<string>, id: int, values: Tokens, other: int)
    requires EndsWithBreak(EnvLines(env)) && OneLine(values) && other != id
    ensures LoadEnvTokens(Some(UpdateTokens(env, id, values)), other) == LoadEnvTokens(env, other)
  {
    var fs := [ConsumerKey, ConsumerSecret, AccessToken, AccessTokenSecret];
    var out := UpdateFields(env, id, values, fs);
    assert Some(UpdateTokens(env, id, values)) == out;
    forall f
      ensures Get(LoadEnvTokens(out, other), f) == Get(LoadEnvTokens(env, other), f)
    {
      EnvKeyOk(f, other);
      forall g | EnvKey(f, other) == EnvKey(g, id)
        ensures false
      {
        EnvKeyInjective(f, other, g, id);
      }
      FieldsOthers(env, id, values, fs, EnvKey(f, other));
      LoadEnvTokensShowsLastValue(out, other, f);
      LoadEnvTokensShowsLastValue(env, other, f);
      if env.None? {
        assert EnvLines(env) == [];
      }
    }
    var t, u := LoadEnvTokens(out, other), LoadEnvTokens(env, other);
    assert t.consumerKey == Get(t, ConsumerKey) == Get(u, ConsumerKey) == u.consumerKey;
    assert t.consumerSecret == Get(t, ConsumerSecret) == Get(u, ConsumerSecret) == u.consumerSecret;
    assert t.accessToken == Get(t, AccessToken) == Get(u, AccessToken) == u.accessToken;
    assert t.accessTokenSecret == Get(t, AccessTokenSecret) == Get(u, AccessTokenSecret) == u.accessTokenSecret;
  }

  /** As written, `update_tokens` on an `.env` whose only line has no final
      break and is not the account's consumer key: the consumer key entry is
      glued onto that line, so the dashboard shows no consumer key for the
      account, whatever was submitted. */
  lemma UpdateTokensLosesKey(l: string, id: int, values: Tokens)
    requires Lines.IsLine(l) && '\r' !in l && l[|l| - 1] != '\n'
    requires !IsSpace(l[0]) && !StartsWith(l, EnvKey(ConsumerKey, id) + "=")
    requires OneLine(values)
    ensures LoadEnvTokens(Some(UpdateTokens(Some(l), id, values)), id).consumerKey == ""
    ensures Strip(values.consumerKey) != [] ==>
              LoadEnvTokens(Some(UpdateTokens(Some(l), id, values)), id).consumerKey != MaskToken(Strip(values.consumerKey))
  {
    var k, v := EnvKey(ConsumerKey, id), Strip(values.consumerKey);
    EnvKeyOk(ConsumerKey, id);
    assert ValueOk(v) by {
      assert Get(values, ConsumerKey) == values.consumerKey;
    }
    GluedEnv(l, k, v);
    var env1 := Some(UpdateEnvAsWritten(Some(l), k, v));
    FirstUpdateLast(Some(l), id, values);
    LaterLoseNothing(env1, id, values);
  }

  /** The last three updates of `update_tokens` do not give the consumer key a value. */
  lemma LaterLoseNothing(env: Option<string>, id: int, values: Tokens)
    requires AllUnindented(EnvLines(env)) && EndsWithBreak(EnvLines(env)) && OneLine(values)
    requires LastValue(EnvLines(env), EnvKey(ConsumerKey, id)) == None
    ensures LoadEnvTokens(UpdateFields(env, id, values, [ConsumerSecret, AccessToken, AccessTokenSecret]), id).consumerKey == ""
  {
    RestLoseNothing(env, id, values, [ConsumerSecret, AccessToken, AccessTokenSecret]);
  }

  /** `update_tokens` is the consumer key's update followed by the other three. */
  lemma FirstUpdateLast(env: Option<string>, id: int, values: Tokens)
    ensures Some(UpdateTokens(env, id, values)) ==
            UpdateFields(Some(UpdateEnvAsWritten(env, EnvKey(ConsumerKey, id), Strip(values.consumerKey))),
                         id, values, [ConsumerSecret, AccessToken, AccessTokenSecret])
  {
    var fs := [ConsumerKey, ConsumerSecret, AccessToken, AccessTokenSecret];
    assert fs[0] == ConsumerKey && fs[1..] == [ConsumerSecret, AccessToken, AccessTokenSecret];
  }

  /** After a consumer key update that left the key with no value, updates
      of other fields do not give it one. */
  lemma RestLoseNothing(env: Option<string>, id: int, values: Tokens, fs: seq<Field>)
    requires AllUnindented(EnvLines(env)) && EndsWithBreak(EnvLines(env)) && OneLine(values)
    requires LastValue(EnvLines(env), EnvKey(ConsumerKey, id)) == None && ConsumerKey !in fs
    ensures LoadEnvTokens(UpdateFields(env, id, values, fs), id).consumerKey == ""
  {
    var out := UpdateFields(env, id, values, fs);
    UpdateFieldsKeepsUnlisted(env, id, values, fs, ConsumerKey);
    LoadEnvTokensShowsLastValue(out, id, ConsumerKey);
  }

  /** `update_tokens`' updates leave the value of a field they do not write. */
  lemma UpdateFieldsKeepsUnlisted(env: Option<string>, id: int, values: Tokens, fs: seq<Field>, f: Field)
    requires EndsWithBreak(EnvLines(env)) && OneLine(values) && f !in fs
    ensures LastValue(EnvLines(UpdateFields(env, id, values, fs)), EnvKey(f, id)) == LastValue(EnvLines(env), EnvKey(f, id))
  {
    EnvKeyOk(f, id);
    forall g | g in fs && EnvKey(f, id) == EnvKey(g, id)
      ensures false
    {
      EnvKeyInjective(g, id, f, id);
    }
    FieldsOthers(env, id, values, fs, EnvKey(f, id));
  }

  /** The `.env` the first, glued update leaves: one unindented line ending
      with a break, which gives `key` no value. */
  lemma GluedEnv(l: string, key: string, value: string)
    requires Lines.IsLine(l) && '\r' !in l && l[|l| - 1] != '\n'
    requires !IsSpace(l[0]) && !StartsWith(l, key + "=")
    requires KeyOk(key) && ValueOk(value)
    ensures var ls := EnvLines(Some(UpdateEnvAsWritten(Some(l), key, value)));
            AllUnindented(ls) && EndsWithBreak(ls) && LastValue(ls, key) == None
  {
    UpdateAsWrittenLosesKey(l, key, value);
    var g := l + Entry(key, value);
    assert g[0] == l[0] && g[|g| - 1] == '\n';
  }

  // ----- reset_tokens -----

  /** `reset_tokens` deletes a line that starts with one of the account's four keys and '='. */
  predicate Cleared(line: string, id: int) {
    exists f: Field :: StartsWith(line, EnvKey(f, id) + "=")
  }

  /** The list comprehension of `reset_tokens`: the lines it keeps, in order. */
  function ResetLines(lines: seq<string>, id: int): (r: seq<string>)
    ensures forall i :: 0 <= i < |r| ==> r[i] in lines && !Cleared(r[i], id)
    ensures forall l :: l in lines && !Cleared(l, id) ==> l in r
    decreases |lines|
  {
    if lines == [] then []
    else (if Cleared(lines[0], id) then [] else [lines[0]]) + ResetLines(lines[1..], id)
  }

  /** Each kept line is kept as often as it occurs, and a deleted one not at all. */
  lemma {:induction false} ResetCounts(lines: seq<string>, id: int)
    ensures forall l :: multiset(ResetLines(lines, id))[l] == if Cleared(l, id) then 0 else multiset(lines)[l]
    decreases |lines|
  {
    if lines != [] {
      ResetCounts(lines[1..], id);
      assert lines == [lines[0]] + lines[1..];
      assert multiset(lines) == multiset([lines[0]]) + multiset(lines[1..]);
    }
  }

  /** The filter works line by line, so it keeps the order of the lines it keeps. */
  lemma {:induction false} ResetDistributes(a: seq<string>, b: seq<string>, id: int)
    ensures ResetLines(a + b, id) == ResetLines(a, id) + ResetLines(b, id)
    decreases |a|
  {
    if a == [] {
      assert a + b == b;
    } else {
      assert (a + b)[0] == a[0];
      assert (a + b)[1..] == a[1..] + b;
      ResetDistributes(a[1..], b, id);
    }
  }

  /** `reset_tokens`: nothing happens when `.env` does not exist. */
  function ResetEnv(env: Option<string>, id: int): Option<string> {
    match env
    case None => None
    case Some(raw) => Some(Lines.Join(ResetLines(Lines.ReadLines(raw), id)))
  }

  /** Deleting lines keeps the file's line structure. */
  lemma {:induction false} ResetWellFormed(lines: seq<string>, id: int)
    requires Lines.WellFormed(lines)
    ensures Lines.WellFormed(ResetLines(lines, id))
    decreases |lines|
  {
    if lines != [] {
      var kept := ResetLines(lines[1..], id);
      assert Lines.WellFormed(lines[1..]);
      ResetWellFormed(lines[1..], id);
      if !Cleared(lines[0], id) {
        if kept != [] {
          assert |lines| > 1;
        }
        Lines.WellFormedCons(lines[0], kept);
        assert ResetLines(lines, id) == [lines[0]] + kept;
      } else {
        assert ResetLines(lines, id) == kept;
      }
    }
  }

  /** The lines `reset_tokens` writes are the ones `readlines` gives back. */
  lemma ResetReadBack(env: Option<string>, id: int)
    requires env.Some?
    ensures EnvLines(ResetEnv(env, id)) == ResetLines(EnvLines(env), id)
  {
    var lines := EnvLines(env);
    ResetWellFormed(lines, id);
    Lines.ReadJoin(ResetLines(lines, id));
  }

  /** Deleting lines that say nothing about `key` does not change its last value. */
  lemma {:induction false} ResetKeepsLastValue(lines: seq<string>, id: int, key: string)
    requires forall i :: 0 <= i < |lines| && Cleared(lines[i], id) ==> ValueFor(lines[i], key).None?
    ensures LastValue(ResetLines(lines, id), key) == LastValue(lines, key)
    decreases |lines|
  {
    if lines != [] {
      var rest := lines[1..];
      var kept := ResetLines(rest, id);
      forall i | 0 <= i < |rest| && Cleared(rest[i], id)
        ensures ValueFor(rest[i], key).None?
      {
        assert rest[i] == lines[i + 1];
      }
      ResetKeepsLastValue(rest, id, key);
      if Cleared(lines[0], id) {
        assert ResetLines(lines, id) == kept;
      } else {
        var out := [lines[0]] + kept;
        assert ResetLines(lines, id) == out;
        assert out[1..] == kept && out[0] == lines[0];
      }
    }
  }

  /** No line mentions `key`, so it has no value. */
  lemma {:induction false} LastValueNone(ls: seq<string>, key: string)
    requires forall i :: 0 <= i < |ls| ==> ValueFor(ls[i], key).None?
    ensures LastValue(ls, key).None?
    decreases |ls|
  {
    if ls != [] {
      LastValueNone(ls[1..], key);
    }
  }

  /** After `reset_tokens`, the dashboard shows the account's four fields empty. */
  lemma ResetClearsTokens(env: Option<string>, id: int)
    requires AllUnindented(EnvLines(env))
    ensures LoadEnvTokens(ResetEnv(env, id), id) == Blank
  {
    if env.Some? {
      ResetReadBack(env, id);
      var kept := ResetLines(EnvLines(env), id);
      forall f
        ensures Get(LoadEnvTokens(ResetEnv(env, id), id), f) == ""
      {
        forall i | 0 <= i < |kept|
          ensures ValueFor(kept[i], EnvKey(f, id)).None?
        {
          var j :| 0 <= j < |EnvLines(env)| && EnvLines(env)[j] == kept[i];
          if ValueFor(kept[i], EnvKey(f, id)).Some? {
            UnindentedPrefix(kept[i], EnvKey(f, id));
          }
        }
        LastValueNone(kept, EnvKey(f, id));
        LoadEnvTokensShowsLastValue(ResetEnv(env, id), id, f);
      }
      var t := LoadEnvTokens(ResetEnv(env, id), id);
      assert t.consumerKey == Get(t, ConsumerKey);
      assert t.consumerSecret == Get(t, ConsumerSecret);
      assert t.accessToken == Get(t, AccessToken);
      assert t.accessTokenSecret == Get(t, AccessTokenSecret);
    }
  }

  /** `reset_tokens` for one account leaves what another account shows as it was. */
  lemma ResetLeavesOthers(env: Option<string>, id: int, other: int)
    requires other != id
    ensures LoadEnvTokens(ResetEnv(env, id), other) == LoadEnvTokens(env, other)
  {
    if env.Some? {
      ResetReadBack(env, id);
      var lines := EnvLines(env);
      forall f
        ensures Get(LoadEnvTokens(ResetEnv(env, id), other), f) == Get(LoadEnvTokens(env, other), f)
      {
        var k := EnvKey(f, other);
        forall i | 0 <= i < |lines| && Cleared(lines[i], id)
          ensures ValueFor(lines[i], k).None?
        {
          var g :| StartsWith(lines[i], EnvKey(g, id) + "=");
          if ValueFor(lines[i], k).Some? {
            EnvKeyOk(f, other);
            EnvKeyOk(g, id);
            ClearedUnindented(lines[i], EnvKey(g, id));
            UnindentedPrefix(lines[i], k);
            KeyPrefixesExclusive(lines[i], k, EnvKey(g, id));
            EnvKeyInjective(f, other, g, id);
          }
        }
        ResetKeepsLastValue(lines, id, k);
        LoadEnvTokensShowsLastValue(ResetEnv(env, id), other, f);
        LoadEnvTokensShowsLastValue(env, other, f);
      }
      var t, u := LoadEnvTokens(ResetEnv(env, id), other), LoadEnvTokens(env, other);
      assert t.consumerKey == Get(t, ConsumerKey) == Get(u, ConsumerKey) == u.consumerKey;
      assert t.consumerSecret == Get(t, ConsumerSecret) == Get(u, ConsumerSecret) == u.consumerSecret;
      assert t.accessToken == Get(t, AccessToken) == Get(u, AccessToken) == u.accessToken;
      assert t.accessTokenSecret == Get(t, AccessTokenSecret) == Get(u, AccessTokenSecret) == u.accessTokenSecret;
    }
  }

  // ----- Concrete cases -----

  lemma ReadOneLine(l: string)
    requires Lines.IsLine(l) && '\r' !in l
    ensures EnvLines(Some(l)) == [l]
  {
    Lines.TranslateIdentity(l);
    Lines.SplitOneLine(l);
  }

  /** As written, the entry for a missing key lands right after an
      unterminated single line, on the same line. */
  lemma AppendGlues(l: string, key: string, value: string)
    requires Lines.IsLine(l) && '\r' !in l && !StartsWith(l, key + "=")
    ensures UpdateEnvAsWritten(Some(l), key, value) == l + Entry(key, value)
  {
    var e := Entry(key, value);
    ReadOneLine(l);
    assert !Mentions([l], key);
    var r := UpdateLinesAsWritten([l], key, value);
    assert r == [l, e];
    calc {
      Lines.Join([l, e]);
      l + Lines.Join([l, e][1..]);
      { assert [l, e][1..] == [e]; }
      l + Lines.Join([e]);
      { assert [e][1..] == []; }
      l + (e + Lines.Join([]));
      { assert e + [] == e; }
      l + e;
    }
  }

  lemma LastValueSingle(l: string, key: string)
    ensures LastValue([l], key) == ValueFor(l, key)
  {
    assert [l][1..] == [];
  }

  /** As written, an `.env` whose only line has no line break and does not
      set `key` gets the new entry glued onto that line: the file then reads
      back as one line and `key` has no value (a file holding `A=1` updated
      with `B=2` becomes `A=1B=2`). `UpdateSetsKey` shows the corrected update
      has no such case. */
  lemma UpdateAsWrittenLosesKey(l: string, key: string, value: string)
    requires Lines.IsLine(l) && '\r' !in l && l[|l| - 1] != '\n'
    requires !IsSpace(l[0]) && !StartsWith(l, key + "=")
    requires KeyOk(key) && ValueOk(value)
    ensures UpdateEnvAsWritten(Some(l), key, value) == l + Entry(key, value)
    ensures EnvLines(Some(UpdateEnvAsWritten(Some(l), key, value))) == [l + Entry(key, value)]
    ensures LastValue(EnvLines(Some(UpdateEnvAsWritten(Some(l), key, value))), key) == None
  {
    GluedLine(l, key, value);
    AppendGlues(l, key, value);
    ReadOneLine(l + Entry(key, value));
    GluedValue(l, key, value);
    LastValueSingle(l + Entry(key, value), key);
  }

  /** Gluing the entry onto an unterminated line makes one well-formed line. */
  lemma GluedLine(l: string, key: string, value: string)
    requires Lines.IsLine(l) && '\r' !in l && l[|l| - 1] != '\n'
    requires KeyOk(key) && ValueOk(value)
    ensures Lines.IsLine(l + Entry(key, value)) && '\r' !in l + Entry(key, value)
  {
    var s := l + key + "=" + value;
    var m := l + Entry(key, value);
    assert m == s + ['\n'];
    assert '\n' !in l by {
      assert l == l[..|l| - 1] + [l[|l| - 1]];
    }
    assert m[..|m| - 1] == s;
  }

  /** The glued line says nothing about `key`: it starts with `l`, which does
      not start with `key=`, or, when `l` is shorter, with `l` and part of `key`. */
  lemma GluedValue(l: string, key: string, value: string)
    requires l != [] && !IsSpace(l[0]) && !StartsWith(l, key + "=")
    requires KeyOk(key) && ValueOk(value)
    ensures ValueFor(l + Entry(key, value), key) == None
  {
    var s := l + key + "=" + value;
    assert l + Entry(key, value) == s + ['\n'];
    assert Trimmed(s);
    StripTrailing(s, '\n');
    if |key| < |l| {
      assert s[..|key| + 1] == l[..|key| + 1];
    } else {
      assert s[|key|] == key[|key| - |l|] && key[|key| - |l|] in key;
      assert s[..|key| + 1][|key|] != (key + "=")[|key|];
    }
  }

  /** The instance above: `A=1` without a final break, updated with `B=2`. */
  lemma MergedExample()
    ensures LastValue(EnvLines(Some(UpdateEnvAsWritten(Some("A=1"), "B", "2"))), "B") == None
  {
    var l := "A=1";
    assert Lines.IsLine(l) by {
      assert l[..2] == "A=";
    }
    assert l[..2][0] != "B="[0];
    UpdateAsWrittenLosesKey(l, "B", "2");
  }

  /** A file of one line that `reset_tokens` does not delete is written back unchanged. */
  lemma ResetKeepsLine(l: string, id: int)
    requires Lines.IsLine(l) && '\r' !in l && !Cleared(l, id)
    ensures ResetEnv(Some(l), id) == Some(l)
  {
    ReadOneLine(l);
    assert [l][1..] == [];
    calc {
      ResetEnv(Some(l), id);
      Some(Lines.Join(ResetLines(Lines.ReadLines(l), id)));
      { assert Lines.ReadLines(l) == EnvLines(Some(l)); }
      Some(Lines.Join(ResetLines([l], id)));
      Some(Lines.Join([l]));
      Some(l + Lines.Join([]));
      { assert l + [] == l; }
      Some(l);
    }
  }

  lemma IndentedLines()
    ensures EnvLines(Some(" CONSUMER_KEY_1=x")) == [" CONSUMER_KEY_1=x"]
  {
    ReadOneLine(" CONSUMER_KEY_1=x");
  }

  lemma IndentedNotCleared()
    ensures !Cleared(" CONSUMER_KEY_1=x", 1)
  {
    var l := " CONSUMER_KEY_1=x";
    forall f
      ensures !StartsWith(l, EnvKey(f, 1) + "=")
    {
      assert l[0] != EnvKey(f, 1)[0];
    }
  }

  lemma EnvKeyOne()
    ensures EnvKey(ConsumerKey, 1) == "CONSUMER_KEY_1"
  {
    assert IntToString(1) == [DigitChar(1)];
  }

  lemma IndentedStrip()
    ensures Strip(" CONSUMER_KEY_1=x") == "CONSUMER_KEY_1=x"
  {
    assert " CONSUMER_KEY_1=x" == [' '] + "CONSUMER_KEY_1=x";
    StripIndented(' ', "CONSUMER_KEY_1=x");
  }

  lemma IndentedValue()
    ensures ValueFor(" CONSUMER_KEY_1=x", EnvKey(ConsumerKey, 1)) == Some("x")
  {
    EnvKeyOne();
    IndentedStrip();
  }

  /** `reset_tokens` compares raw lines while `load_env_tokens` strips them:
      an indented key line survives a reset ... */
  lemma ResetMissesIndentedKey()
    ensures ResetEnv(Some(" CONSUMER_KEY_1=x"), 1) == Some(" CONSUMER_KEY_1=x")
  {
    IndentedNotCleared();
    ResetKeepsLine(" CONSUMER_KEY_1=x", 1);
  }

  /** ... and is still shown. */
  lemma IndentedKeyShown()
    ensures LoadEnvTokens(Some(" CONSUMER_KEY_1=x"), 1).consumerKey == "x"
  {
    IndentedLines();
    IndentedValue();
    LastValueSingle(" CONSUMER_KEY_1=x", EnvKey(ConsumerKey, 1));
    LoadEnvTokensShowsLastValue(Some(" CONSUMER_KEY_1=x"), 1, ConsumerKey);
  }
}

=== FILE: lines.dfy ===
/**
 * Text files as the program sees them. A read in Python's text mode applies
 * universal-newline translation ("\r\n" and a lone "\r" both become "\n") and
 * iterates the result line by line, each line keeping its "\n" terminator;
 * `writelines` writes the lines back concatenated. The comment queue is
 * loaded as the stripped non-blank lines and saved one comment per line.
 */
module Lines {
  import opened Wrappers
  import opened Text

  /** How many characters the first translation step consumes: both of a
      "\r\n" pair, otherwise one. */
  function CutLen(s: string): (n: nat)
    requires s != []
    ensures 1 <= n <= |s|
  {
    if s[0] == '\r' && |s| > 1 && s[1] == '\n' then 2 else 1
  }

  /** What the first translation step emits: "\n" for either line ending,
      otherwise the character itself. */
  function CutOut(s: string): (r: string)
    requires s != []
    ensures '\r' !in r
  {
    if s[0] == '\r' then "\n" else [s[0]]
  }

  /** Universal-newline translation applied by a text-mode read. */
  function Translate(s: string): (r: string)
    ensures '\r' !in r
    decreases |s|
  {
    if s == [] then [] else CutOut(s) + Translate(s[CutLen(s)..])
  }

  /** Text without carriage returns reads back unchanged. */
  lemma {:induction false} TranslateIdentity(s: string)
    requires '\r' !in s
    ensures Translate(s) == s
    decreases |s|
  {
    if s != [] {
      assert s[0] in s;
      assert forall c :: c in s[1..] ==> c in s;
      TranslateIdentity(s[1..]);
    }
  }

  /** The first step on `a` is the first step on `a + b`, unless `a` is a
      lone "\r" that `b` completes to a "\r\n" pair. */
  lemma CutPrefix(a: string, b: string)
    requires a != []
    requires |a| > 1 || a[0] != '\r' || b == [] || b[0] != '\n'
    ensures CutLen(a + b) == CutLen(a)
    ensures CutOut(a + b) == CutOut(a)
    ensures (a + b)[CutLen(a)..] == a[CutLen(a)..] + b
  {
    assert (a + b)[0] == a[0];
    if |a| > 1 {
      assert (a + b)[1] == a[1];
    }
  }

  lemma SeqAssoc<T>(a: seq<T>, b: seq<T>, c: seq<T>)
    ensures a + (b + c) == (a + b) + c
  {
  }

  /** The first step of translating `a + b`, when the cut cannot split a
      "\r\n" pair; what is left of `a` still does not end in "\r". */
  lemma TranslateAfterCut(a: string, b: string)
    requires a != [] && a[|a| - 1] != '\r'
    ensures Translate(a + b) == CutOut(a) + Translate(a[CutLen(a)..] + b)
    ensures var r := a[CutLen(a)..]; r == [] || r[|r| - 1] != '\r'
  {
    CutPrefix(a, b);
  }

  /** Translation works piecewise when the cut cannot split a "\r\n" pair. */
  lemma {:induction false} TranslateConcat(a: string, b: string)
    requires a == [] || a[|a| - 1] != '\r'
    ensures Translate(a + b) == Translate(a) + Translate(b)
    decreases |a|
  {
    if a == [] {
      assert a + b == b;
    } else {
      var n := CutLen(a);
      TranslateAfterCut(a, b);
      TranslateConcat(a[n..], b);
      SeqAssoc(CutOut(a), Translate(a[n..]), Translate(b));
    }
  }

  /** A "\n" after a final "\r" is absorbed into it. */
  lemma {:induction false} TranslateCrLfAtEnd(x: string)
    ensures Translate(x + "\r\n") == Translate(x + "\r")
    decreases |x|
  {
    if x == [] {
      assert Translate("\r\n") == "\n" + Translate([]);
      assert Translate("\r") == "\n" + Translate([]);
    } else {
      var n := CutLen(x);
      CutPrefix(x, "\r\n");
      CutPrefix(x, "\r");
      assert x[n..] + "\r\n" == (x[n..] + "\r") + "\n";
      TranslateCrLfAtEnd(x[n..]);
    }
  }

  /** The translation of text ending in "\n" ends in "\n". */
  lemma {:induction false} TranslateEndsNewline(a: string)
    ensures Translate(a + "\n") != [] && Translate(a + "\n")[|Translate(a + "\n")| - 1] == '\n'
    decreases |a|
  {
    if a == [] {
      assert Translate("\n") == "\n" + Translate([]);
    } else if a == "\r" {
      assert Translate("\r\n") == "\n" + Translate([]);
    } else {
      var n := CutLen(a);
      CutPrefix(a, "\n");
      TranslateEndsNewline(a[n..]);
    }
  }

  /** A "\n" always ends a line of the translation: what follows it is
      translated on its own. */
  lemma TranslateAfterNewline(a: string, b: string)
    ensures Translate(a + "\n" + b) == Translate(a + "\n") + Translate(b)
  {
    TranslateConcat(a + "\n", b);
  }

  /** Index of the first "\n" in `t`, or `|t|` when there is none. */
  function NewlineIndex(t: string): (k: nat)
    ensures k <= |t|
    ensures k < |t| ==> t[k] == '\n'
    ensures '\n' !in t[..k]
    decreases |t|
  {
    if t == [] || t[0] == '\n' then 0 else 1 + NewlineIndex(t[1..])
  }

  lemma {:induction false} NewlineIndexConcat(u: string, v: string)
    ensures NewlineIndex(u + v) == if NewlineIndex(u) < |u| then NewlineIndex(u) else |u| + NewlineIndex(v)
    decreases |u|
  {
    if u != [] && u[0] != '\n' {
      assert (u + v)[1..] == u[1..] + v;
      NewlineIndexConcat(u[1..], v);
    } else if u == [] {
      assert u + v == v;
    }
  }

  /** The lines written out one after another. */
  function Join(ls: seq<string>): string
    decreases |ls|
  {
    if ls == [] then [] else ls[0] + Join(ls[1..])
  }

  /** A line as a read yields it: non-empty, with "\n" at most as its last character. */
  predicate IsLine(l: string) {
    l != [] && '\n' !in l[..|l| - 1]
  }

  /** What a text-mode read yields: lines, every one but the last terminated. */
  predicate WellFormed(ls: seq<string>) {
    && (forall i :: 0 <= i < |ls| ==> IsLine(ls[i]))
    && (forall i :: 0 <= i < |ls| - 1 ==> ls[i][|ls[i]| - 1] == '\n')
  }

  /** A line in front of well-formed lines keeps them well formed, provided
      it is terminated whenever something follows it. */
  lemma WellFormedCons(l: string, ls: seq<string>)
    requires IsLine(l) && WellFormed(ls)
    requires ls != [] ==> l[|l| - 1] == '\n'
    ensures WellFormed([l] + ls)
  {
    assert forall i :: 1 <= i < |ls| + 1 ==> ([l] + ls)[i] == ls[i - 1];
  }

  /** Length of the first line of `t`, its "\n" included. */
  function FirstLen(t: string): (n: nat)
    requires t != []
    ensures 1 <= n <= |t|
  {
    var k := NewlineIndex(t);
    if k == |t| then |t| else k + 1
  }

  /** The first line is a line, and it is terminated when more text follows. */
  lemma FirstLine(t: string)
    requires t != []
    ensures IsLine(t[..FirstLen(t)])
    ensures FirstLen(t) < |t| ==> t[FirstLen(t) - 1] == '\n'
  {
    var k := NewlineIndex(t);
    if k == |t| {
      assert t[..|t|][..|t| - 1] == t[..k][..|t| - 1];
    } else {
      assert t[..k + 1][..k] == t[..k];
    }
  }

  /** Line iteration over already-translated text. */
  function SplitLines(t: string): (ls: seq<string>)
    decreases |t|
  {
    if t == [] then [] else [t[..FirstLen(t)]] + SplitLines(t[FirstLen(t)..])
  }

  lemma JoinCons(l: string, ls: seq<string>)
    ensures Join([l] + ls) == l + Join(ls)
  {
    assert ([l] + ls)[0] == l && ([l] + ls)[1..] == ls;
  }

  /** The lines put back together give the text. */
  lemma {:induction false} JoinSplit(t: string)
    ensures Join(SplitLines(t)) == t
    decreases |t|
  {
    if t != [] {
      var n := FirstLen(t);
      calc {
        Join(SplitLines(t));
        Join([t[..n]] + SplitLines(t[n..]));
        { JoinCons(t[..n], SplitLines(t[n..])); }
        t[..n] + Join(SplitLines(t[n..]));
        { JoinSplit(t[n..]); }
        t[..n] + t[n..];
        t;
      }
    }
  }

  /** Every line but the last is terminated. */
  lemma {:induction false} SplitWellFormed(t: string)
    ensures WellFormed(SplitLines(t))
    decreases |t|
  {
    if t != [] {
      var n := FirstLen(t);
      FirstLine(t);
      SplitWellFormed(t[n..]);
      WellFormedCons(t[..n], SplitLines(t[n..]));
    }
  }

  /** A character absent from a text is absent from both sides of any cut. */
  lemma CutKeepsAbsent(t: string, n: nat, c: char)
    requires n <= |t| && c !in t
    ensures c !in t[..n] && c !in t[n..]
  {
    assert forall j :: 0 <= j < n ==> t[..n][j] == t[j];
    assert forall j :: n <= j < |t| ==> t[n..][j - n] == t[j];
  }

  /** A character absent from a line and from the lines after it is absent
      from every line of the whole. */
  lemma ConsKeepsAbsent(l: string, ls: seq<string>, c: char)
    requires c !in l
    requires forall i :: 0 <= i < |ls| ==> c !in ls[i]
    ensures forall i :: 0 <= i < |[l] + ls| ==> c !in ([l] + ls)[i]
  {
    assert forall i :: 1 <= i < |[l] + ls| ==> ([l] + ls)[i] == ls[i - 1];
  }

  /** Splitting only cuts: a character absent from the text is absent from every line. */
  lemma {:induction false} SplitKeepsAbsent(t: string, c: char)
    requires c !in t
    ensures forall i :: 0 <= i < |SplitLines(t)| ==> c !in SplitLines(t)[i]
    decreases |t|
  {
    if t != [] {
      var n := FirstLen(t);
      CutKeepsAbsent(t, n, c);
      SplitKeepsAbsent(t[n..], c);
      ConsKeepsAbsent(t[..n], SplitLines(t[n..]), c);
    }
  }

  /** After a terminated prefix, the first line is the same. */
  lemma FirstLenConcat(x: string, y: string)
    requires x != [] && x[|x| - 1] == '\n'
    ensures FirstLen(x + y) == FirstLen(x)
    ensures (x + y)[..FirstLen(x)] == x[..FirstLen(x)]
    ensures (x + y)[FirstLen(x)..] == x[FirstLen(x)..] + y
  {
    NewlineIndexConcat(x, y);
  }

  /** Text after a terminated prefix: its first line is the prefix's, and
      what remains of the prefix is still terminated. */
  lemma SplitAfterLine(x: string, y: string)
    requires x != [] && x[|x| - 1] == '\n'
    ensures SplitLines(x + y) == [x[..FirstLen(x)]] + SplitLines(x[FirstLen(x)..] + y)
    ensures var r := x[FirstLen(x)..]; r == [] || r[|r| - 1] == '\n'
  {
    FirstLenConcat(x, y);
  }

  lemma ConsAssoc<T>(a: T, b: seq<T>, c: seq<T>)
    ensures [a] + (b + c) == ([a] + b) + c
  {
  }

  /** Splitting after a terminated prefix splits each part separately. */
  lemma {:induction false} SplitConcat(x: string, y: string)
    requires x == [] || x[|x| - 1] == '\n'
    ensures SplitLines(x + y) == SplitLines(x) + SplitLines(y)
    decreases |x|
  {
    if x == [] {
      assert x + y == y;
    } else {
      var n := FirstLen(x);
      SplitAfterLine(x, y);
      SplitConcat(x[n..], y);
      ConsAssoc(x[..n], SplitLines(x[n..]), SplitLines(y));
    }
  }

  /** A single line splits to itself. */
  lemma SplitOneLine(l: string)
    requires IsLine(l)
    ensures SplitLines(l) == [l]
  {
    assert FirstLen(l) == |l|;
    assert l[..FirstLen(l)] == l;
  }

  /** Re-reading what `writelines` wrote gives back the same lines,
      provided they were well formed. */
  lemma {:induction false} SplitJoin(ls: seq<string>)
    requires WellFormed(ls)
    ensures SplitLines(Join(ls)) == ls
    decreases |ls|
  {
    if ls != [] {
      SplitOneLine(ls[0]);
      if |ls| == 1 {
        assert Join(ls) == ls[0] + Join([]);
        assert Join(ls) == ls[0];
      } else {
        SplitConcat(ls[0], Join(ls[1..]));
        assert WellFormed(ls[1..]);
        SplitJoin(ls[1..]);
        assert ls == [ls[0]] + ls[1..];
      }
    }
  }

  /** `f.readlines()` on a file with contents `raw`. */
  function ReadLines(raw: string): (ls: seq<string>)
    ensures WellFormed(ls)
    ensures forall i :: 0 <= i < |ls| ==> '\r' !in ls[i]
  {
    SplitWellFormed(Translate(raw));
    SplitKeepsAbsent(Translate(raw), '\r');
    SplitLines(Translate(raw))
  }

  /** A character absent from every line is absent from the text they make up. */
  lemma {:induction false} JoinKeepsAbsent(ls: seq<string>, c: char)
    requires forall i :: 0 <= i < |ls| ==> c !in ls[i]
    ensures c !in Join(ls)
    decreases |ls|
  {
    if ls != [] {
      JoinKeepsAbsent(ls[1..], c);
    }
  }

  /** Lines written with `writelines` and read back with `readlines` come back
      unchanged when they are well formed and hold no carriage return. */
  lemma ReadJoin(ls: seq<string>)
    requires WellFormed(ls)
    requires forall i :: 0 <= i < |ls| ==> '\r' !in ls[i]
    ensures ReadLines(Join(ls)) == ls
  {
    JoinKeepsAbsent(ls, '\r');
    TranslateIdentity(Join(ls));
    SplitJoin(ls);
  }

  /** A comment as the queue file stores it: one non-blank, stripped line. */
  predicate Storable(c: string) {
    c != [] && Trimmed(c) && '\n' !in c && '\r' !in c
  }

  /** A read line that contributes a comment: no carriage return, "\n" only at its end. */
  predicate ReadLine(l: string) {
    '\r' !in l && (l == [] || '\n' !in l[..|l| - 1])
  }

  /** What one line contributes to the queue: its stripped text, or nothing when blank. */
  function Kept(l: string): seq<string> {
    if Strip(l) == [] then [] else [Strip(l)]
  }

  /** The stripped non-blank lines, in order: `[l.strip() for l in ls if l.strip()]`. */
  function Clean(ls: seq<string>): (cs: seq<string>)
    decreases |ls|
  {
    if ls == [] then [] else Kept(ls[0]) + Clean(ls[1..])
  }

  /** Every element is a storable comment. */
  predicate AllStorable(cs: seq<string>) {
    forall j :: 0 <= j < |cs| ==> Storable(cs[j])
  }

  lemma StrippedLineStorable(l: string)
    requires ReadLine(l)
    requires Strip(l) != []
    ensures Storable(Strip(l))
  {
    StripDropsFinalBreak(l, '\n');
    StripKeepsAbsent(l, '\r');
  }

  lemma AllStorableConcat(a: seq<string>, b: seq<string>)
    requires AllStorable(a) && AllStorable(b)
    ensures AllStorable(a + b)
  {
    assert forall j :: 0 <= j < |a + b| ==> (a + b)[j] == if j < |a| then a[j] else b[j - |a|];
  }

  lemma {:induction false} CleanStorable(ls: seq<string>)
    requires forall i :: 0 <= i < |ls| ==> ReadLine(ls[i])
    ensures AllStorable(Clean(ls))
    decreases |ls|
  {
    if ls != [] {
      if Strip(ls[0]) != [] {
        StrippedLineStorable(ls[0]);
      }
      assert forall i :: 0 <= i < |ls[1..]| ==> ReadLine(ls[1..][i]);
      CleanStorable(ls[1..]);
      AllStorableConcat(Kept(ls[0]), Clean(ls[1..]));
    }
  }

  /** One line in front contributes what it keeps. */
  lemma CleanCons(l: string, rest: seq<string>)
    ensures Clean([l] + rest) == Kept(l) + Clean(rest)
  {
    assert ([l] + rest)[0] == l;
    assert ([l] + rest)[1..] == rest;
  }

  /** A single line contributes what it keeps. */
  lemma CleanOne(l: string)
    ensures Clean([l]) == Kept(l)
  {
    CleanCons(l, []);
    assert [l] + [] == [l];
  }

  lemma {:induction false} CleanConcat(p: seq<string>, q: seq<string>)
    ensures Clean(p + q) == Clean(p) + Clean(q)
    decreases |p|
  {
    if p == [] {
      assert p + q == q;
    } else {
      assert p + q == [p[0]] + (p[1..] + q);
      calc {
        Clean(p + q);
        { CleanCons(p[0], p[1..] + q); }
        Kept(p[0]) + Clean(p[1..] + q);
        { CleanConcat(p[1..], q); }
        Kept(p[0]) + (Clean(p[1..]) + Clean(q));
        (Kept(p[0]) + Clean(p[1..])) + Clean(q);
      }
    }
  }

  /** `load_comments`: the comment queue held in a file with contents `raw`. */
  function Load(raw: string): (cs: seq<string>)
    ensures AllStorable(cs)
  {
    var ls := ReadLines(raw);
    assert forall i :: 0 <= i < |ls| ==> ReadLine(ls[i]);
    CleanStorable(ls);
    Clean(ls)
  }

  /** A missing file loads as the empty queue. */
  function LoadFile(file: Option<string>): (cs: seq<string>)
    ensures file.None? ==> cs == []
    ensures AllStorable(cs)
  {
    match file
    case None => []
    case Some(raw) => Load(raw)
  }

  /** `save_comments`: each comment followed by "\n". */
  function Save(cs: seq<string>): string
    decreases |cs|
  {
    if cs == [] then "" else cs[0] + "\n" + Save(cs[1..])
  }

  /** Writing one more comment appends its line. */
  lemma {:induction false} SaveSnoc(cs: seq<string>, c: string)
    ensures Save(cs + [c]) == Save(cs) + c + "\n"
    decreases |cs|
  {
    if cs != [] {
      assert (cs + [c])[1..] == cs[1..] + [c];
      SaveSnoc(cs[1..], c);
    }
  }

  lemma {:induction false} SaveNoCr(cs: seq<string>)
    requires forall i :: 0 <= i < |cs| ==> '\r' !in cs[i]
    ensures '\r' !in Save(cs)
    decreases |cs|
  {
    if cs != [] {
      SaveNoCr(cs[1..]);
    }
  }

  /** A stored comment's line keeps exactly that comment. */
  lemma KeptStored(c: string)
    requires Storable(c)
    ensures IsLine(c + "\n")
    ensures Kept(c + "\n") == [c]
  {
    assert (c + "\n")[..|c|] == c;
    StripTrailing(c, '\n');
  }

  /** The saved text splits into the first comment's line and the lines of the rest. */
  lemma SplitSaveCons(cs: seq<string>)
    requires cs != [] && Storable(cs[0])
    ensures SplitLines(Save(cs)) == [cs[0] + "\n"] + SplitLines(Save(cs[1..]))
  {
    KeptStored(cs[0]);
    SplitConcat(cs[0] + "\n", Save(cs[1..]));
    SplitOneLine(cs[0] + "\n");
  }

  lemma {:induction false} CleanSplitSave(cs: seq<string>)
    requires forall i :: 0 <= i < |cs| ==> Storable(cs[i])
    ensures Clean(SplitLines(Save(cs))) == cs
    decreases |cs|
  {
    if cs != [] {
      SplitSaveCons(cs);
      KeptStored(cs[0]);
      CleanCons(cs[0] + "\n", SplitLines(Save(cs[1..])));
      CleanSplitSave(cs[1..]);
      assert [cs[0]] + cs[1..] == cs;
    }
  }

  /** Saving a queue and loading it back gives the same queue, for comments
      that are already stripped, non-blank and free of line breaks. */
  lemma LoadSave(cs: seq<string>)
    requires forall i :: 0 <= i < |cs| ==> Storable(cs[i])
    ensures Load(Save(cs)) == cs
  {
    SaveNoCr(cs);
    TranslateIdentity(Save(cs));
    CleanSplitSave(cs);
  }

  /** Saving what was loaded and loading again changes nothing. */
  lemma SaveLoadIdempotent(raw: string)
    ensures Load(Save(Load(raw))) == Load(raw)
  {
    LoadSave(Load(raw));
  }

  /** A bare "\n" keeps nothing. */
  lemma KeptBreak()
    ensures Kept("\n") == []
  {
    assert IsSpace('\n') && "\n"[..0] == [];
    assert StripRight("\n") == [];
  }

  /** A "\n" after text that already ends in one adds no comment. */
  lemma CleanSplitNewlineTerminated(u: string)
    requires u != [] && u[|u| - 1] == '\n'
    ensures Clean(SplitLines(u + "\n")) == Clean(SplitLines(u))
  {
    KeptBreak();
    SplitOneLine("\n");
    CleanOne("\n");
    SplitConcat(u, "\n");
    CleanConcat(SplitLines(u), ["\n"]);
    assert Clean(SplitLines(u)) + [] == Clean(SplitLines(u));
  }

  /** Terminating a single unterminated line keeps the same comment. */
  lemma CleanSplitNewlineOneLine(u: string)
    requires IsLine(u) && u[|u| - 1] != '\n'
    ensures Clean(SplitLines(u + "\n")) == Clean(SplitLines(u))
  {
    assert (u + "\n")[..|u|] == u;
    SplitOneLine(u);
    SplitOneLine(u + "\n");
    CleanOne(u);
    CleanOne(u + "\n");
    StripAppendSpace(u, '\n');
  }

  /** A trailing "\n" after translated text adds no comment. */
  lemma {:induction false} CleanSplitNewline(u: string)
    ensures Clean(SplitLines(u + "\n")) == Clean(SplitLines(u))
    decreases |u|
  {
    if u == [] {
      KeptBreak();
      SplitOneLine("\n");
      CleanOne("\n");
      assert u + "\n" == "\n";
    } else if u[|u| - 1] == '\n' {
      CleanSplitNewlineTerminated(u);
    } else {
      var n := FirstLen(u);
      FirstLine(u);
      if n == |u| {
        assert u[..n] == u;
        CleanSplitNewlineOneLine(u);
      } else {
        var x, y := u[..n], u[n..];
        assert u == x + y && u + "\n" == x + (y + "\n");
        SplitConcat(x, y);
        SplitConcat(x, y + "\n");
        CleanConcat(SplitLines(x), SplitLines(y));
        CleanConcat(SplitLines(x), SplitLines(y + "\n"));
        CleanSplitNewline(y);
      }
    }
  }

  /** A file holding one storable comment, with or without a final break, loads as that comment. */
  lemma LoadStorable(c: string)
    requires Storable(c)
    ensures Load(c) == [c]
    ensures Load(c + "\n") == [c]
  {
    assert IsLine(c) by {
      assert c[..|c| - 1] + [c[|c| - 1]] == c;
    }
    TranslateIdentity(c);
    SplitOneLine(c);
    CleanOne(c);
    LoadTerminated(c);
  }

  /** Terminating the last line of a queue file does not change the queue. */
  lemma LoadTerminated(a: string)
    ensures Load(a + "\n") == Load(a)
  {
    if a != [] && a[|a| - 1] == '\r' {
      var x := a[..|a| - 1];
      assert a == x + "\r";
      assert a + "\n" == x + "\r\n";
      TranslateCrLfAtEnd(x);
    } else {
      TranslateConcat(a, "\n");
      assert Translate("\n") == "\n";
      CleanSplitNewline(Translate(a));
    }
  }

  /** Text appended after a "\n" separator adds its own comments after the old ones. */
  lemma LoadSeparated(a: string, b: string)
    ensures Load(a + "\n" + b) == Load(a) + Load(b)
  {
    TranslateAfterNewline(a, b);
    TranslateEndsNewline(a);
    SplitConcat(Translate(a + "\n"), Translate(b));
    CleanConcat(SplitLines(Translate(a + "\n")), SplitLines(Translate(b)));
    LoadTerminated(a);
  }

  /** Text appended to a file whose contents end with "\n" (or are empty) adds
      its own comments after the old ones. */
  lemma LoadAppend(a: string, b: string)
    requires a == [] || a[|a| - 1] == '\n'
    ensures Load(a + b) == Load(a) + Load(b)
  {
    if a == [] {
      assert a + b == b;
    } else {
      var x := a[..|a| - 1];
      assert a == x + "\n";
      assert a + b == x + "\n" + b;
      LoadSeparated(x, b);
      LoadTerminated(x);
    }
  }
}

=== FILE: retry.dfy ===
/**
 * Submitting one comment with bounded retries (bot.py, the `for attempt in
 * range(3)` loop). The platform is abstracted as the stream of replies it
 * gives to successive submissions; the runner keeps a cursor into it, so a
 * step consumes exactly as many replies as it makes submissions.
 */
module Retry {
  import opened Text

  /** How a submission ends, one case per `except` branch of the loop. */
  datatype Outcome =
    | Success
    | Forbidden
    | RateLimited
    | Unauthorized
    | NetworkError
    | Other(message: string)

  /** The reply to the n-th submission of the run. */
  type Replies = nat -> Outcome

  /** The reply to attempt `i` (0-based) of a comment whose first attempt
      is submission `base` of the run. */
  function ReplyAt(replies: Replies, base: nat, i: nat): Outcome {
    replies(base + i)
  }

  /** Submissions per popped comment. */
  const MaxAttempts: nat := 3

  /** Only a rate limit or a network failure leads to another attempt. */
  predicate Retryable(o: Outcome) {
    o.RateLimited? || o.NetworkError?
  }

  /** `"suspend" in str(e).lower()`. Lower-casing ASCII letters is exact here:
      no other character lower-cases to one of the letters of the needle. */
  predicate MentionsSuspension(message: string) {
    Contains(Lower(message), "suspend")
  }

  /** The log line one attempt produces. */
  datatype Report =
    | Commented(count: nat, max: int, comment: string)
    | ForbiddenReport
    | RateLimitedReport
    | UnauthorizedReport
    | NetworkReport(attempt: nat)
    | SuspendedReport(message: string)
    | ErrorReport(message: string)

  /** Report for an attempt (numbered from 1) that got reply `o`; `count` is the
      processed count after a success. */
  function ReportFor(o: Outcome, attempt: nat, count: nat, max: int, comment: string): Report {
    match o
    case Success => Commented(count, max, comment)
    case Forbidden => ForbiddenReport
    case RateLimited => RateLimitedReport
    case Unauthorized => UnauthorizedReport
    case NetworkError => NetworkReport(attempt)
    case Other(m) => if MentionsSuspension(m) then SuspendedReport(m) else ErrorReport(m)
  }

  /** What the retry loop leaves behind: whether the comment went out, how many
      submissions it made, the processed count afterwards and the log lines. */
  datatype Attempts = Attempts(success: bool, used: nat, count: nat, reports: seq<Report>)

  /** The retry policy, stated independently of any loop: between one and
      three submissions; every submission but the last got a retryable reply;
      stopping before the third means the last reply was final; success is a
      `Success` last reply and adds exactly one to the count; one log line per
      submission. Replies are read from position `base` of the stream. */
  predicate Explains(replies: Replies, base: nat, count: nat, max: int, comment: string, a: Attempts) {
    && 1 <= a.used <= MaxAttempts
    && (forall i: nat :: 0 <= i < a.used - 1 ==> Retryable(ReplyAt(replies, base, i)))
    && (a.used < MaxAttempts ==> !Retryable(ReplyAt(replies, base, a.used - 1)))
    && (a.success <==> ReplyAt(replies, base, a.used - 1) == Success)
    && a.count == count + (if a.success then 1 else 0)
    && |a.reports| == a.used
    && (forall i: nat :: 0 <= i < a.used ==> a.reports[i] == ReportFor(ReplyAt(replies, base, i), i + 1, a.count, max, comment))
  }

  /** The loop from attempt `attempt` (0-based) onwards. */
  function SubmitFrom(replies: Replies, base: nat, attempt: nat, count: nat, max: int, comment: string): (a: Attempts)
    requires attempt < MaxAttempts
    ensures attempt < a.used <= MaxAttempts
    ensures forall i: nat :: attempt <= i < a.used - 1 ==> Retryable(ReplyAt(replies, base, i))
    ensures a.used < MaxAttempts ==> !Retryable(ReplyAt(replies, base, a.used - 1))
    ensures a.success <==> ReplyAt(replies, base, a.used - 1) == Success
    ensures a.count == count + (if a.success then 1 else 0)
    ensures |a.reports| == a.used - attempt
    ensures forall i: nat :: attempt <= i < a.used ==>
              a.reports[i - attempt] == ReportFor(ReplyAt(replies, base, i), i + 1, a.count, max, comment)
    decreases MaxAttempts - attempt
  {
    var o := ReplyAt(replies, base, attempt);
    if o == Success then
      Attempts(true, attempt + 1, count + 1, [ReportFor(o, attempt + 1, count + 1, max, comment)])
    else if Retryable(o) && attempt + 1 < MaxAttempts then
      // a failure's log line does not show the count, so any count will do
      var rest := SubmitFrom(replies, base, attempt + 1, count, max, comment);
      rest.(reports := [ReportFor(o, attempt + 1, rest.count, max, comment)] + rest.reports)
    else
      Attempts(false, attempt + 1, count, [ReportFor(o, attempt + 1, count, max, comment)])
  }

  /** Sending one comment: the whole retry loop. */
  function SendWithRetry(replies: Replies, base: nat, count: nat, max: int, comment: string): (a: Attempts)
    ensures Explains(replies, base, count, max, comment, a)
  {
    SubmitFrom(replies, base, 0, count, max, comment)
  }

  /** The retry loop as `send_with_retry` writes it: a counted loop left by
      `break` on a success or a final failure. */
  method SubmitLoop(replies: Replies, base: nat, count: nat, max: int, comment: string) returns (a: Attempts)
    ensures Explains(replies, base, count, max, comment, a)
  {
    var reports: seq<Report> := [];
    var success := false;
    var processed := count;
    var attempt := 0;
    while attempt < MaxAttempts
      invariant 0 <= attempt <= MaxAttempts
      invariant |reports| == attempt
      invariant forall i: nat :: 0 <= i < attempt ==> Retryable(ReplyAt(replies, base, i))
      invariant forall i: nat :: 0 <= i < attempt ==> reports[i] == ReportFor(ReplyAt(replies, base, i), i + 1, count, max, comment)
    {
      var o := ReplyAt(replies, base, attempt);
      if o == Success {
        processed := processed + 1;
        reports := reports + [ReportFor(o, attempt + 1, processed, max, comment)];
        success := true;
        attempt := attempt + 1;
        break;
      } else if !Retryable(o) {
        reports := reports + [ReportFor(o, attempt + 1, processed, max, comment)];
        attempt := attempt + 1;
        break;
      }
      reports := reports + [ReportFor(o, attempt + 1, processed, max, comment)];
      attempt := attempt + 1;
    }
    a := Attempts(success, attempt, processed, reports);
  }

  /** The policy admits exactly one outcome, so the loop and the recursive
      definition agree on every reply stream. */
  lemma ExplainsUnique(replies: Replies, base: nat, count: nat, max: int, comment: string, a: Attempts, b: Attempts)
    requires Explains(replies, base, count, max, comment, a)
    requires Explains(replies, base, count, max, comment, b)
    ensures a == b
  {
    if a.used == b.used {
      assert a.reports == b.reports;
    }
  }

  /** A platform that keeps answering "rate limited" gets three submissions and
      three rate-limit log lines, and the count stays put. */
  lemma AlwaysRateLimited(replies: Replies, base: nat, count: nat, max: int, comment: string)
    requires forall n :: replies(n) == RateLimited
    ensures SendWithRetry(replies, base, count, max, comment).used == MaxAttempts
    ensures !SendWithRetry(replies, base, count, max, comment).success
    ensures SendWithRetry(replies, base, count, max, comment).count == count
    ensures SendWithRetry(replies, base, count, max, comment).reports == [RateLimitedReport, RateLimitedReport, RateLimitedReport]
  {
    var a := SendWithRetry(replies, base, count, max, comment);
    assert forall i: nat :: ReplyAt(replies, base, i) == RateLimited;
    assert a.reports[0] == RateLimitedReport;
    assert a.reports[1] == RateLimitedReport;
    assert a.reports[2] == RateLimitedReport;
  }

  /** The loop ends at the first final reply: a Forbidden, Unauthorized or
      other reply at attempt `k`, after retryable replies only, makes attempt
      `k` the last one. */
  lemma StopsAtFirstFinalReply(replies: Replies, base: nat, count: nat, max: int, comment: string, k: nat)
    requires k < MaxAttempts
    requires forall i: nat :: i < k ==> Retryable(ReplyAt(replies, base, i))
    requires !Retryable(ReplyAt(replies, base, k))
    ensures SendWithRetry(replies, base, count, max, comment).used == k + 1
  {
  }
}

=== FILE: runner.dfy ===
/**
 * The runner (bot.py `main`): a fold of the per-account step over the
 * accounts of a cycle, and of cycles over the run. The shared flags, the
 * settings file and external edits of the files arrive as a sequence of
 * ticks; the platform's replies come from a stream with a cursor.
 */
module Runner {
  import opened Wrappers
  import opened Text
  import Lines
  import opened Retry
  import Settings

  /** `comments_<id>.txt` and `tweets_<id>.txt` by account id; an absent key is a missing file. */
  datatype Files = Files(comments: map<int, string>, tweets: map<int, string>)

  function FileOf(m: map<int, string>, id: int): Option<string> {
    if id in m then Some(m[id]) else None
  }

  /** `load_tweet_id`: the stripped contents, read in text mode, or nothing
      when the file is missing or blank. */
  function LoadTweetId(file: Option<string>): (r: Option<string>)
    ensures r.None? <==> (file.None? || Strip(Lines.Translate(file.value)) == [])
    ensures r.Some? ==> r.value == Strip(Lines.Translate(file.value)) && r.value != [] && Trimmed(r.value)
  {
    match file
    case None => None
    case Some(raw) =>
      var v := Strip(Lines.Translate(raw));
      if v == [] then None else Some(v)
  }

  /** A line of the log. */
  datatype Event =
    | LimitReached(max: int)
    | NoTweetId
    | NoComments
    | Submitted(report: Report)

  datatype Entry = BotStarted | BotStopped | AccountEvent(id: int, event: Event)

  /** The runner's state: processed counts (in memory only), the files, the
      position in the reply stream and the log. */
  datatype State = State(counts: map<int, nat>, files: Files, cursor: nat, log: seq<Entry>)

  /** `processed_counts.setdefault(id, 0)`. */
  function Count(counts: map<int, nat>, id: int): nat {
    if id in counts then counts[id] else 0
  }

  /** The cap in force for an account under the given settings. */
  function Cap(settings: Settings.Json, id: int): int {
    Settings.ForAccount(settings, id).maxComments
  }

  datatype StepKind = Skipped | Sent(comment: string, target: string, attempts: Attempts)

  datatype StepResult = StepResult(state: State, kind: StepKind)

  function Reported(id: int, reports: seq<Report>): (es: seq<Entry>)
    ensures |es| == |reports|
    ensures forall i :: 0 <= i < |reports| ==> es[i] == AccountEvent(id, Submitted(reports[i]))
  {
    seq(|reports|, i requires 0 <= i < |reports| => AccountEvent(id, Submitted(reports[i])))
  }

  /** The non-skipped path: pop the head comment, submit it with retries,
      write the rest of the queue back. */
  function SendHead(st: State, id: int, count: nat, max: int, target: string, queue: seq<string>, replies: Replies): (r: StepResult)
    requires queue != [] && Lines.AllStorable(queue)
    ensures r.kind.Sent?
    ensures r.kind.comment == queue[0] && r.kind.target == target
    ensures Explains(replies, st.cursor, count, max, queue[0], r.kind.attempts)
    ensures r.state.cursor == st.cursor + r.kind.attempts.used
    ensures Count(r.state.counts, id) == r.kind.attempts.count
    ensures id in r.state.files.comments && Lines.Load(r.state.files.comments[id]) == queue[1..]
    ensures r.state.files.tweets == st.files.tweets
    ensures forall other :: other != id ==>
              Count(r.state.counts, other) == Count(st.counts, other)
              && FileOf(r.state.files.comments, other) == FileOf(st.files.comments, other)
    ensures st.log <= r.state.log
  {
    var comment := queue[0];
    var a := SendWithRetry(replies, st.cursor, count, max, comment);
    var saved := Lines.Save(queue[1..]);
    Lines.LoadSave(queue[1..]);
    var files := st.files.(comments := st.files.comments[id := saved]);
    StepResult(State(st.counts[id := a.count], files, st.cursor + a.used, st.log + Reported(id, a.reports)), Sent(comment, target, a))
  }

  /** A skipped turn: only the count's default entry and a log line are added. */
  function Skip(st: State, id: int, event: Event): (r: StepResult)
    ensures r.kind.Skipped?
    ensures r.state.files == st.files && r.state.cursor == st.cursor
    ensures forall a :: Count(r.state.counts, a) == Count(st.counts, a)
    ensures st.log <= r.state.log
  {
    StepResult(st.(counts := st.counts[id := Count(st.counts, id)], log := st.log + [AccountEvent(id, event)]), Skipped)
  }

  /** One account's turn in a cycle. It is skipped when its count has reached
      the cap, when no target post is set or when its queue is empty; otherwise
      the head comment is popped, submitted with retries, and the queue is
      written back without it whatever the outcome. */
  function Step(st: State, id: int, settings: Settings.Json, replies: Replies): (r: StepResult)
    ensures var count := Count(st.counts, id);
            var target := LoadTweetId(FileOf(st.files.tweets, id));
            var queue := Lines.LoadFile(FileOf(st.files.comments, id));
            && (r.kind.Sent? <==> count < Cap(settings, id) && target.Some? && queue != [])
            && (r.kind.Skipped? ==>
                  r.state.files == st.files && r.state.cursor == st.cursor && Count(r.state.counts, id) == count)
            && (r.kind.Sent? ==>
                  && r.kind.comment == queue[0]
                  && r.kind.target == target.value
                  && Explains(replies, st.cursor, count, Cap(settings, id), queue[0], r.kind.attempts)
                  && r.state.cursor == st.cursor + r.kind.attempts.used
                  && Count(r.state.counts, id) == r.kind.attempts.count
                  && id in r.state.files.comments
                  && Lines.Load(r.state.files.comments[id]) == queue[1..])
    ensures r.state.files.tweets == st.files.tweets
    ensures forall other :: other != id ==>
              Count(r.state.counts, other) == Count(st.counts, other)
              && FileOf(r.state.files.comments, other) == FileOf(st.files.comments, other)
    ensures st.log <= r.state.log
  {
    var max := Cap(settings, id);
    var count := Count(st.counts, id);
    if count >= max then Skip(st, id, LimitReached(max))
    else
      match LoadTweetId(FileOf(st.files.tweets, id))
      case None => Skip(st, id, NoTweetId)
      case Some(target) =>
        var queue := Lines.LoadFile(FileOf(st.files.comments, id));
        if queue == [] then Skip(st, id, NoComments)
        else SendHead(st, id, count, max, target, queue, replies)
  }

  /** A step never takes a count that is within the cap beyond it. */
  lemma StepRespectsCap(st: State, id: int, settings: Settings.Json, replies: Replies, a: int)
    requires Count(st.counts, a) <= Cap(settings, a)
    ensures Count(Step(st, id, settings, replies).state.counts, a) <= Cap(settings, a)
  {
  }

  function Min(a: nat, b: nat): nat {
    if a <= b then a else b
  }

  /** One pass over the accounts, in order. `stopAt` is the first account
      before which the running flag was seen false (the loop `break`s there). */
  function Cycle(st: State, accounts: seq<int>, settings: Settings.Json, replies: Replies, stopAt: nat): (r: State)
    ensures r.files.tweets == st.files.tweets
    ensures st.cursor <= r.cursor
    ensures st.log <= r.log
    decreases |accounts|
  {
    if accounts == [] || stopAt == 0 then st
    else Cycle(Step(st, accounts[0], settings, replies).state, accounts[1..], settings, replies, stopAt - 1)
  }

  /** The accounts a cycle reaches before it stops. */
  function Reached(accounts: seq<int>, stopAt: nat): seq<int> {
    accounts[..Min(stopAt, |accounts|)]
  }

  /** A cycle never lowers a processed count. */
  lemma {:induction false} CycleCountsGrow(st: State, accounts: seq<int>, settings: Settings.Json, replies: Replies, stopAt: nat, a: int)
    ensures Count(st.counts, a) <= Count(Cycle(st, accounts, settings, replies, stopAt).counts, a)
    decreases |accounts|
  {
    if accounts != [] && stopAt != 0 {
      var s := Step(st, accounts[0], settings, replies);
      CycleCountsGrow(s.state, accounts[1..], settings, replies, stopAt - 1, a);
    }
  }

  /** A count within the cap stays within it across a cycle. */
  lemma {:induction false} CycleRespectsCap(st: State, accounts: seq<int>, settings: Settings.Json, replies: Replies, stopAt: nat, a: int)
    requires Count(st.counts, a) <= Cap(settings, a)
    ensures Count(Cycle(st, accounts, settings, replies, stopAt).counts, a) <= Cap(settings, a)
    decreases |accounts|
  {
    if accounts != [] && stopAt != 0 {
      var s := Step(st, accounts[0], settings, replies);
      StepRespectsCap(st, accounts[0], settings, replies, a);
      CycleRespectsCap(s.state, accounts[1..], settings, replies, stopAt - 1, a);
    }
  }

  /** An account the cycle does not reach keeps its count and its queue file. */
  lemma {:induction false} CycleLeavesUnreached(st: State, accounts: seq<int>, settings: Settings.Json, replies: Replies, stopAt: nat, a: int)
    requires a !in Reached(accounts, stopAt)
    ensures var r := Cycle(st, accounts, settings, replies, stopAt);
            Count(r.counts, a) == Count(st.counts, a) && FileOf(r.files.comments, a) == FileOf(st.files.comments, a)
    decreases |accounts|
  {
    if accounts != [] && stopAt != 0 {
      assert Reached(accounts, stopAt)[0] == accounts[0];
      assert Reached(accounts[1..], stopAt - 1) == Reached(accounts, stopAt)[1..];
      var s := Step(st, accounts[0], settings, replies);
      CycleLeavesUnreached(s.state, accounts[1..], settings, replies, stopAt - 1, a);
    }
  }

  /** What the runner observes at the top of each turn of its outer loop:
      the running flag false, the paused flag set, a cycle with the settings
      read at its start, or files changed from the dashboard in between. */
  datatype Tick =
    | Halt
    | Paused
    | Pass(settings: Settings.Json, stopAt: nat)
    | Edit(files: Files)

  function Run(st: State, accounts: seq<int>, replies: Replies, ticks: seq<Tick>): State
    decreases |ticks|
  {
    if ticks == [] then st
    else
      match ticks[0]
      case Halt => st.(log := st.log + [BotStopped])
      case Paused => Run(st, accounts, replies, ticks[1..])
      case Pass(settings, stopAt) => Run(Cycle(st, accounts, settings, replies, stopAt), accounts, replies, ticks[1..])
      case Edit(files) => Run(st.(files := files), accounts, replies, ticks[1..])
  }

  /** `main`: counts start empty; the log records the start. */
  function Main(files: Files, accounts: seq<int>, replies: Replies, ticks: seq<Tick>): State {
    Run(State(map[], files, 0, [BotStarted]), accounts, replies, ticks)
  }

  /** The cap fixed for an account in every cycle of `ticks`. */
  predicate CapFixed(ticks: seq<Tick>, a: int, m: int) {
    forall i :: 0 <= i < |ticks| && ticks[i].Pass? ==> Cap(ticks[i].settings, a) == m
  }

  /** With the cap held at `m` in every cycle, a count within the cap stays within it. */
  lemma {:induction false} RunKeepsCap(st: State, accounts: seq<int>, replies: Replies, ticks: seq<Tick>, a: int, m: int)
    requires Count(st.counts, a) <= m
    requires CapFixed(ticks, a, m)
    ensures Count(Run(st, accounts, replies, ticks).counts, a) <= m
    decreases |ticks|
  {
    if ticks != [] {
      assert forall i :: 0 <= i < |ticks[1..]| ==> ticks[1..][i] == ticks[i + 1];
      match ticks[0]
      case Halt =>
      case Paused =>
        RunKeepsCap(st, accounts, replies, ticks[1..], a, m);
      case Pass(settings, stopAt) =>
        assert Cap(settings, a) == m;
        CycleRespectsCap(st, accounts, settings, replies, stopAt, a);
        RunKeepsCap(Cycle(st, accounts, settings, replies, stopAt), accounts, replies, ticks[1..], a, m);
      case Edit(files) =>
        RunKeepsCap(st.(files := files), accounts, replies, ticks[1..], a, m);
    }
  }

  /** The state a tick other than `Halt` leaves for the next one. */
  function After(st: State, accounts: seq<int>, replies: Replies, t: Tick): State {
    match t
    case Halt => st
    case Paused => st
    case Pass(settings, stopAt) => Cycle(st, accounts, settings, replies, stopAt)
    case Edit(files) => st.(files := files)
  }

  lemma RunUnfold(st: State, accounts: seq<int>, replies: Replies, ticks: seq<Tick>)
    requires ticks != [] && ticks[0] != Halt
    ensures Run(st, accounts, replies, ticks) == Run(After(st, accounts, replies, ticks[0]), accounts, replies, ticks[1..])
  {
  }

  /** The first cleared running flag, at tick `i`, ends the run with the stop
      entry: the ticks after it are never read. */
  lemma {:induction false} HaltEndsRun(st: State, accounts: seq<int>, replies: Replies, ticks: seq<Tick>, i: nat)
    requires i < |ticks| && ticks[i] == Halt
    requires forall j :: 0 <= j < i ==> ticks[j] != Halt
    ensures Run(st, accounts, replies, ticks) == Run(st, accounts, replies, ticks[..i + 1])
    ensures var log := Run(st, accounts, replies, ticks).log; log != [] && log[|log| - 1] == BotStopped
    decreases i
  {
    var pre := ticks[..i + 1];
    assert pre[0] == ticks[0];
    if i > 0 {
      var rest := ticks[1..];
      assert pre[1..] == rest[..i];
      assert rest[i - 1] == Halt;
      forall j | 0 <= j < i - 1
        ensures rest[j] != Halt
      {
        assert rest[j] == ticks[j + 1];
      }
      RunUnfold(st, accounts, replies, ticks);
      RunUnfold(st, accounts, replies, pre);
      HaltEndsRun(After(st, accounts, replies, ticks[0]), accounts, replies, rest, i - 1);
    }
  }

  /** The log is only ever appended to. */
  lemma {:induction false} RunExtendsLog(st: State, accounts: seq<int>, replies: Replies, ticks: seq<Tick>)
    ensures st.log <= Run(st, accounts, replies, ticks).log
    decreases |ticks|
  {
    if ticks != [] {
      match ticks[0]
      case Halt =>
      case Paused =>
        RunExtendsLog(st, accounts, replies, ticks[1..]);
      case Pass(settings, stopAt) =>
        RunExtendsLog(Cycle(st, accounts, settings, replies, stopAt), accounts, replies, ticks[1..]);
      case Edit(files) =>
        RunExtendsLog(st.(files := files), accounts, replies, ticks[1..]);
    }
  }

  /** From a fresh start, a non-negative cap held fixed is never exceeded. */
  lemma MainKeepsCap(files: Files, accounts: seq<int>, replies: Replies, ticks: seq<Tick>, a: int, m: int)
    requires 0 <= m
    requires CapFixed(ticks, a, m)
    ensures Count(Main(files, accounts, replies, ticks).counts, a) <= m
  {
    RunKeepsCap(State(map[], files, 0, [BotStarted]), accounts, replies, ticks, a, m);
  }

  /** While paused, no account advances: no submission, no file change, no count change. */
  lemma {:induction false} PausedRunIdles(st: State, accounts: seq<int>, replies: Replies, ticks: seq<Tick>)
    requires forall i :: 0 <= i < |ticks| ==> ticks[i] == Paused
    ensures Run(st, accounts, replies, ticks) == st
    decreases |ticks|
  {
    if ticks != [] {
      assert forall i :: 0 <= i < |ticks[1..]| ==> ticks[1..][i] == ticks[i + 1];
      PausedRunIdles(st, accounts, replies, ticks[1..]);
    }
  }
}

/** A worked run of the runner. */
module RunnerExample {
  import opened Wrappers
  import Text
  import Lines
  import opened Retry
  import opened Runner

  function AlwaysAccepts(n: nat): Outcome {
    Success
  }

  function Example(): Files {
    Files(map[1 := "hi\nbye\n"], map[1 := "123"])
  }

  function ExampleSettings(): map<string, map<string, int>> {
    map["1" := map["interval" := 10, "max_comments" := 1]]
  }

  lemma ExampleQueue()
    ensures Lines.LoadFile(FileOf(Example().comments, 1)) == ["hi", "bye"]
  {
    assert Lines.Save(["hi", "bye"]) == "hi\nbye\n";
    assert Lines.Storable("hi") && Lines.Storable("bye");
    Lines.LoadSave(["hi", "bye"]);
  }

  lemma ExampleCap()
    ensures Cap(ExampleSettings(), 1) == 1
  {
    assert Text.NatToString(1) == [Text.DigitChar(1)];
  }

  lemma ExampleTarget()
    ensures LoadTweetId(FileOf(Example().tweets, 1)) == Some("123")
  {
    Lines.TranslateIdentity("123");
    assert Text.Trimmed("123");
  }

  function Start(): State {
    State(map[], Example(), 0, [])
  }

  function FirstCycle(): State {
    Cycle(Start(), [1], ExampleSettings(), AlwaysAccepts, 1)
  }

  lemma FirstCycleSends()
    ensures Count(FirstCycle().counts, 1) == 1
    ensures Lines.LoadFile(FileOf(FirstCycle().files.comments, 1)) == ["bye"]
  {
    ExampleQueue();
    ExampleCap();
    ExampleTarget();
    var s := Step(Start(), 1, ExampleSettings(), AlwaysAccepts);
    assert s.kind.Sent?;
    assert s.kind.comment == "hi";
    assert ReplyAt(AlwaysAccepts, 0, 0) == Success;
    assert FirstCycle() == s.state;
  }

  /** Account 1 has queue ["hi", "bye"], target post "123", cap 1 and a
      platform that always accepts. The first cycle sends "hi" and leaves
      ["bye"]; the second finds the cap reached and changes nothing. */
  lemma CapReachedAfterOneSend()
    ensures var second := Cycle(FirstCycle(), [1], ExampleSettings(), AlwaysAccepts, 1);
            && Count(FirstCycle().counts, 1) == 1
            && Lines.LoadFile(FileOf(FirstCycle().files.comments, 1)) == ["bye"]
            && second.files == FirstCycle().files
            && Count(second.counts, 1) == 1
  {
    FirstCycleSends();
    ExampleCap();
    var s2 := Step(FirstCycle(), 1, ExampleSettings(), AlwaysAccepts);
    assert s2.kind.Skipped?;
    assert Cycle(FirstCycle(), [1], ExampleSettings(), AlwaysAccepts, 1) == s2.state;
  }
}

=== FILE: settings.dfy ===
/**
 * Per-account settings: the JSON object mapping `str(account_id)` to
 * `{"interval": …, "max_comments": …}`, read by the runner at the start of
 * every cycle and written by the dashboard.
 */
module Settings {
  import opened Text

  /** The decoded settings file; a field missing from an entry is absent from its map. */
  type Json = map<string, map<string, int>>

  const DefaultInterval: int := 15
  const DefaultMaxComments: int := 20

  datatype AccountSettings = AccountSettings(interval: int, maxComments: int)

  /** The key an account's entry is stored under. */
  function Key(id: int): string {
    IntToString(id)
  }

  /** `entry.get(name, default)`. */
  function Field(entry: map<string, int>, name: string, default: int): int {
    if name in entry then entry[name] else default
  }

  /** The runner's view of one account: `settings.get(str(id), {})` and then
      each field with its default. */
  function ForAccount(s: Json, id: int): (cfg: AccountSettings)
    ensures Key(id) !in s ==> cfg == AccountSettings(DefaultInterval, DefaultMaxComments)
    ensures Key(id) in s && "interval" !in s[Key(id)] ==> cfg.interval == DefaultInterval
    ensures Key(id) in s && "max_comments" !in s[Key(id)] ==> cfg.maxComments == DefaultMaxComments
    ensures Key(id) in s && "interval" in s[Key(id)] ==> cfg.interval == s[Key(id)]["interval"]
    ensures Key(id) in s && "max_comments" in s[Key(id)] ==> cfg.maxComments == s[Key(id)]["max_comments"]
  {
    var entry := if Key(id) in s then s[Key(id)] else map[];
    AccountSettings(Field(entry, "interval", DefaultInterval), Field(entry, "max_comments", DefaultMaxComments))
  }

  /** `update_account_settings`: replace one account's entry with both fields. */
  function Update(s: Json, id: int, interval: int, maxComments: int): (r: Json)
    ensures r.Keys == s.Keys + {Key(id)}
    ensures forall k :: k in s && k != Key(id) ==> r[k] == s[k]
    ensures ForAccount(r, id) == AccountSettings(interval, maxComments)
  {
    s[Key(id) := map["interval" := interval, "max_comments" := maxComments]]
  }

  /** Updating one account leaves every other account's settings as they were. */
  lemma UpdateLeavesOthers(s: Json, id: int, other: int, interval: int, maxComments: int)
    requires other != id
    ensures ForAccount(Update(s, id, interval, maxComments), other) == ForAccount(s, other)
  {
    if Key(other) == Key(id) {
      IntToStringInjective(other, id);
    }
  }
}

=== FILE: text.dfy ===
/** Optional values: a missing file, an unset target post. */
module Wrappers {

  datatype Option<+T> = None | Some(value: T) {

    /** The value, or `default` when there is none. */
    function GetOr(default: T): T {
      match this
      case Some(v) => v
      case None => default
    }
  }
}

/**
 * Python string primitives the dashboard and the runner rely on:
 * `str.strip`, `str.startswith`, `str(int)`, `str.lower` restricted to the
 * letters that matter, and substring search.
 */
module Text {

  /** The characters Python's `str.isspace` accepts, which `str.strip()` removes. */
  predicate IsSpace(c: char) {
    var n := c as int;
    || (0x09 <= n <= 0x0D)
    || (0x1C <= n <= 0x20)
    || n == 0x85 || n == 0xA0 || n == 0x1680
    || (0x2000 <= n <= 0x200A)
    || n == 0x2028 || n == 0x2029 || n == 0x202F || n == 0x205F || n == 0x3000
  }

  /** A string `strip()` leaves unchanged: no surrounding whitespace. */
  predicate Trimmed(s: string) {
    s == [] || (!IsSpace(s[0]) && !IsSpace(s[|s| - 1]))
  }

  /** `s.lstrip()`: the suffix of `s` left after its leading whitespace. */
  function StripLeft(s: string): (r: string)
    ensures |r| <= |s|
    ensures r == [] || !IsSpace(r[0])
    decreases |s|
  {
    if s != [] && IsSpace(s[0]) then StripLeft(s[1..]) else s
  }

  /** What `lstrip()` leaves is a suffix. */
  lemma {:induction false} StripLeftSuffix(s: string)
    ensures StripLeft(s) == s[|s| - |StripLeft(s)|..]
    ensures forall k :: 0 <= k < |s| - |StripLeft(s)| ==> IsSpace(s[k])
    decreases |s|
  {
    if s != [] && IsSpace(s[0]) {
      StripLeftSuffix(s[1..]);
      assert s[1..][|s[1..]| - |StripLeft(s)|..] == s[|s| - |StripLeft(s)|..];
      forall k | 1 <= k < |s| - |StripLeft(s)|
        ensures IsSpace(s[k])
      {
        assert s[k] == s[1..][k - 1];
      }
    }
  }

  /** `s.rstrip()`: the prefix of `s` left after its trailing whitespace. */
  function StripRight(s: string): (r: string)
    ensures |r| <= |s|
    ensures r == [] || !IsSpace(r[|r| - 1])
    decreases |s|
  {
    if s != [] && IsSpace(s[|s| - 1]) then StripRight(s[..|s| - 1]) else s
  }

  /** What `rstrip()` leaves is a prefix. */
  lemma {:induction false} StripRightPrefix(s: string)
    ensures StripRight(s) == s[..|StripRight(s)|]
    ensures forall k :: |StripRight(s)| <= k < |s| ==> IsSpace(s[k])
    decreases |s|
  {
    if s != [] && IsSpace(s[|s| - 1]) {
      StripRightPrefix(s[..|s| - 1]);
      assert s[..|s| - 1][..|StripRight(s)|] == s[..|StripRight(s)|];
      forall k | |StripRight(s)| <= k < |s| - 1
        ensures IsSpace(s[k])
      {
        assert s[k] == s[..|s| - 1][k];
      }
    }
  }

  /** `s.strip()`: the middle of `s`, after removing whitespace from both
      ends and nothing else. */
  function Strip(s: string): (r: string)
    ensures Trimmed(r)
    ensures |r| <= |s|
    ensures Trimmed(s) ==> r == s
    ensures exists i, j :: 0 <= i <= j <= |s| && r == s[i..j]
              && (forall k :: 0 <= k < i ==> IsSpace(s[k]))
              && (forall k :: j <= k < |s| ==> IsSpace(s[k]))
  {
    var m := StripRight(s);
    StripRightPrefix(s);
    StripLeftSuffix(m);
    var i := |m| - |StripLeft(m)|;
    assert StripLeft(m) == s[i..|m|];
    assert forall k :: 0 <= k < i ==> s[k] == m[k];
    StripLeft(m)
  }

  /** `strip()` only removes characters: one absent before is absent after. */
  lemma StripKeepsAbsent(s: string, c: char)
    requires c !in s
    ensures c !in Strip(s)
  {
    var m := StripRight(s);
    StripRightPrefix(s);
    assert forall i :: 0 <= i < |m| ==> m[i] == s[i];
    var r := StripLeft(m);
    StripLeftSuffix(m);
    assert forall i :: 0 <= i < |r| ==> r[i] == m[|m| - |r| + i];
  }

  /** Whitespace appended to a string does not survive `strip()`. */
  lemma StripAppendSpace(s: string, c: char)
    requires IsSpace(c)
    ensures Strip(s + [c]) == Strip(s)
  {
    assert (s + [c])[..|s + [c]| - 1] == s;
  }

  /** A stripped string followed by one whitespace character strips back to itself. */
  lemma StripTrailing(s: string, c: char)
    requires Trimmed(s) && IsSpace(c)
    ensures Strip(s + [c]) == s
  {
    StripAppendSpace(s, c);
  }

  /** A line-break character at the very end of `s` is not kept by `strip()`,
      so a string with no other line break strips to one with none. */
  lemma StripDropsFinalBreak(s: string, c: char)
    requires IsSpace(c)
    requires s == [] || c !in s[..|s| - 1]
    ensures c !in Strip(s)
  {
    if s != [] && s[|s| - 1] == c {
      assert s == s[..|s| - 1] + [c];
      StripAppendSpace(s[..|s| - 1], c);
      StripKeepsAbsent(s[..|s| - 1], c);
    } else if s != [] {
      assert s == s[..|s| - 1] + [s[|s| - 1]];
      StripKeepsAbsent(s, c);
    }
  }

  /** Whitespace in front of a stripped string is all `strip()` removes. */
  lemma StripIndented(c: char, s: string)
    requires IsSpace(c) && s != [] && Trimmed(s)
    ensures Strip([c] + s) == s
  {
    var t := [c] + s;
    assert t[|t| - 1] == s[|s| - 1];
    assert StripRight(t) == t;
    assert t[1..] == s;
    assert StripLeft(s) == s;
  }

  /** `s.startswith(p)`. */
  predicate StartsWith(s: string, p: string) {
    |p| <= |s| && s[..|p|] == p
  }

  /** For a string that does not start with whitespace, `strip()` only cuts at
      the end, so a prefix of the stripped string is a prefix of the original. */
  lemma StrippedPrefix(s: string, p: string)
    requires s != [] && !IsSpace(s[0])
    requires p != [] && StartsWith(Strip(s), p)
    ensures StartsWith(s, p)
  {
    var m := StripRight(s);
    StripRightPrefix(s);
    assert m != [] && m[0] == s[0];
    assert Strip(s) == m;
    assert s[..|p|] == m[..|p|];
  }

  /** `p in s` for strings: `sub` occurs somewhere in `s`. */
  predicate Contains(s: string, sub: string)
    decreases |s|
  {
    StartsWith(s, sub) || (s != [] && Contains(s[1..], sub))
  }

  /** `str.lower` on one character, exact for the ASCII letters. */
  function LowerChar(c: char): (r: char)
    ensures 'A' <= c <= 'Z' ==> r as int == c as int + 32
    ensures !('A' <= c <= 'Z') ==> r == c
  {
    if 'A' <= c <= 'Z' then (c as int + 32) as char else c
  }

  function Lower(s: string): (r: string)
    ensures |r| == |s|
    ensures forall i :: 0 <= i < |s| ==> r[i] == LowerChar(s[i])
  {
    seq(|s|, i requires 0 <= i < |s| => LowerChar(s[i]))
  }

  predicate IsDigit(c: char) {
    '0' <= c <= '9'
  }

  function DigitChar(d: nat): (c: char)
    requires d < 10
    ensures IsDigit(c)
  {
    ('0' as int + d) as char
  }

  /** Decimal digits of `n`, most significant first, as `str(n)` writes them. */
  function NatToString(n: nat): (r: string)
    ensures |r| >= 1
    ensures forall i :: 0 <= i < |r| ==> IsDigit(r[i])
  {
    if n < 10 then [DigitChar(n)] else NatToString(n / 10) + [DigitChar(n % 10)]
  }

  /** `str(n)` for an int. */
  function IntToString(n: int): (r: string)
    ensures |r| >= 1
    ensures IsDigit(r[0]) || r[0] == '-'
    ensures forall i :: 0 <= i < |r| ==> IsDigit(r[i]) || r[i] == '-'
  {
    if n < 0 then "-" + NatToString(-n) else NatToString(n)
  }

  /** Distinct numbers have distinct decimal renderings. */
  lemma {:induction false} NatToStringInjective(a: nat, b: nat)
    requires NatToString(a) == NatToString(b)
    ensures a == b
  {
    var sa, sb := NatToString(a), NatToString(b);
    if 10 <= a && 10 <= b {
      assert sa[|sa| - 1] == DigitChar(a % 10);
      assert sb[|sb| - 1] == DigitChar(b % 10);
      assert sa[..|sa| - 1] == NatToString(a / 10);
      assert sb[..|sb| - 1] == NatToString(b / 10);
      NatToStringInjective(a / 10, b / 10);
    }
  }

  /** `str` is injective on ints: two account ids never share a key. */
  lemma IntToStringInjective(a: int, b: int)
    requires IntToString(a) == IntToString(b)
    ensures a == b
  {
    if a < 0 && b < 0 {
      assert IntToString(a)[1..] == NatToString(-a);
      assert IntToString(b)[1..] == NatToString(-b);
      NatToStringInjective(-a, -b);
    } else if a >= 0 && b >= 0 {
      NatToStringInjective(a, b);
    }
  }
}
